=== FILE: README.md ===
# Quiz maker — a Dafny model of its front-end logic

The quiz maker is a web front end for writing quizzes of question/answer
pairs, editing them, and playing them one question at a time. Most of it is
presentation, but four pieces are pure sequential logic, and this project
models them as immutable datatypes and total functions:

- **Pagination and previews** (`Utils`, `TablePagination`):
  - the page list with ellipses;
  - the "Showing a to b of n" item range;
  - page clamping;
  - text truncation and the question preview;
  - the pagination bar that uses them.
- **The question working set** (`QuizQuestions`, `QuizForm`):
  - the form's ordered list of entries and the pending-delete dialog;
  - prepend new, prepend recycled, remove (request, then confirm), toggle collapse and reorder;
  - the "available to recycle" filter;
  - the drag-and-drop reorder and the submit button's state.
- **The player** (`PlayQuiz`):
  - the cursor over the questions and the set of revealed answers;
  - previous, next and reveal;
  - swipe classification and the keyboard dispatch.
- **Validation and submission** (`FieldRules`, `QuizSchema`, `QuizValidation`, `QuizSubmit`, `CreateQuizForm`, `EditQuizForm`):
  - the form schema and the two request schemas, as sets of issues;
  - the case-insensitive duplicate-name check;
  - the mapping from form entries to the questions that are sent;
  - the initial values of the create and edit forms.

Shared types live in `Types`, and ASCII case folding plus decimal rendering live in `Strings`.

A quiz is modelled with an ordered `questions: seq<Question>`, because the
hooks read and write `quiz.questions`. The declared `Quiz` type in
`lib/types.d.ts:7-12` carries `questionIds` instead; the questions list
appears only on `QuizWithQuestions` (`lib/types.d.ts:24-26`). `Date.now()` and
`Math.random()` enter as parameters: the string `stamp` for a new entry's
tempId, and a clock `clock: nat -> nat` for generated question ids, where
`clock(i)` is the reading taken while entry `i` is mapped.

Where the code and its comments disagree, the model follows the code:

- **Page-list examples.** The doc comment of `getPaginationPages` lists `[1, 2, 3, E, 10]` for page 1 of 10 and `[1, E, 8, 9, 10]` for page 10 of 10. The code lists only one neighbour of the first and last page, giving `[1, 2, E, 10]` and `[1, E, 9, 10]`. `Utils.DocExamples` states the code's values and their difference from the comment. `Utils.PaginationPagesIsWindow` characterises the code for every input.
- **Name length message.** The name's upper bound is inclusive: a name of exactly 100 characters is accepted, although the message says "less than 100".
- **Recycle guard.** The duplicate guard of `addRecycledQuestion` is keyed on the tempId `recycled-<id>`, not on the question id. So a question already present as `existing-<id>` can be prepended a second time (`QuizQuestions.RecycleGuardIgnoresIds`). Through the form this does not happen, because the recycle list offers only questions whose id is absent (`QuizQuestions.RecycleAvailableKeepsIdsUnique`).
- **Empty quiz keys.** Without questions the key handler stays installed, and space followed by ArrowRight moves the cursor to 1 (`PlayQuiz.EmptyQuizCursorEscapes`).
- **Touch at x = 0.** A touch coordinate of 0 is falsy in JavaScript, so a swipe that starts or ends at x = 0 is ignored (`PlayQuiz.TouchAtZeroIgnored`).
- **Keys before the quiz loads.** The player's cursor and revealed set are not reset when the quiz arrives. Space then ArrowRight pressed while the quiz is loading leave the cursor at 1, so a one-question quiz loaded afterwards has no current question until ArrowLeft is pressed (`PlayQuiz.LoadAfterKeysUnreachable`).

## Model

| member | source | states |
|---|---|---|
| Utils.TruncateText | lib/utils.ts:9-12 | text that fits is returned unchanged; longer text becomes its first `maxLength` characters (0 for a negative limit) followed by "...", so the result has `maxLength + 3` characters |
| Utils.QuestionPreview | lib/utils.ts:14-18 | no entry gives "", empty text gives "Empty question", text over 50 characters gives its first 50 plus "...", other text is returned as is; never more than 53 characters |
| Utils.PreviewIsTruncation | components/quizzes/quiz-form.tsx:82-86 | the dialog's preview is `truncateText` at 50 characters applied to the text or the placeholder |
| Utils.PaginationPages | lib/utils.ts:37-40 | no pages give an empty list, one page gives `[1]`, and the list never has more than 7 entries |
| Utils.PaginationPagesIsWindow | lib/utils.ts:33-78 | for 2 or more pages and a valid current page, the list is the rendering of the reference window (page 1, the current page's neighbours clipped to the inner pages, the last page) with an ellipsis wherever neighbouring numbers skip a page |
| Utils.WindowShown | lib/utils.ts:44-75 | the reference window is strictly increasing and holds page k exactly when k is the first page, the last page, or within one of the current page |
| Utils.PaginationPagesShape | lib/utils.ts:44-75 | the list starts with 1 and ends with the last page; it holds exactly the shown pages, in strictly increasing order; every ellipsis sits between two pages at least 2 apart; and two adjacent page entries are consecutive numbers |
| Utils.CurrentPageListedOnce | lib/utils.ts:57-60 | a valid current page appears in the list exactly once |
| Utils.AtMostTwoEllipses | lib/utils.ts:47-70 | the list never holds more than two ellipses |
| Utils.DocExamples | lib/utils.ts:28-31 | page 5 of 10 gives the documented list; pages 1 and 10 of 10 give `[1, 2, E, 10]` and `[1, E, 9, 10]`, not the documented lists |
| Utils.PaginationRange | lib/utils.ts:92-101 | the first item is `(page - 1) * perPage + 1`; the last item is the smaller of `page * perPage` and the total |
| Utils.PaginationRangeCoversPage | lib/utils.ts:92-101 | the caption's range starts at item 1 or later, never passes the last item, never spans more than a page, and holds exactly the items whose page is the current page |
| Utils.RangeExamples | lib/utils.ts:88-90 | the documented examples (1,10,25) → 1..10 and (3,10,25) → 21..25 hold |
| Utils.ClampPage | lib/utils.ts:115-118 | 1 when there are no pages; otherwise a page in [1, totalPages], the page itself when already in range, 1 below the range, and totalPages above it |
| Utils.ClampPageIdempotent | lib/utils.ts:115-118 | clamping an already clamped page changes nothing |
| Utils.ClampPageExamples | lib/utils.ts:110-113 | the documented examples (5,3) → 3, (-1,10) → 1 and (5,10) → 5 hold |
| TablePagination.TablePagination | components/common/table-pagination.tsx:31-109 | nothing is rendered for at most one page; otherwise the caption shows the item range of the current page and the total, followed by Previous, one control per page-list entry in order, then Next, with Previous disabled exactly at page 1 and Next exactly at the last page |
| TablePagination.NavigationTargets | components/common/table-pagination.tsx:54-102 | Previous requests `max(1, page - 1)` and Next requests `min(totalPages, page + 1)`; both lie in [1, totalPages], and each is disabled exactly when its request would not move |
| TablePagination.ExactlyOneActiveLink | components/common/table-pagination.tsx:65-90 | exactly one link is active, and it is the link to the current page |
| TablePagination.CaptionBounds | components/common/table-pagination.tsx:37-48 | the caption shows the total item count, never passes the last item, and never counts more than a page |
| QuizQuestions.AddNewQuestion | hooks/use-quiz-questions.ts:54-63 | prepends exactly one entry (no id, empty text and answer, expanded, tempId from the stamp); the earlier entries follow unchanged and in order |
| QuizQuestions.AddNewKeepsTempIdsUnique | hooks/use-quiz-questions.ts:54-63 | with a fresh tempId, adding a new entry keeps tempIds unique |
| QuizQuestions.AddRecycledQuestion | hooks/use-quiz-questions.ts:94-113 | a no-op when `recycled-<id>` is already a tempId; otherwise it prepends a collapsed copy of the question under that tempId and leaves the rest unchanged |
| QuizQuestions.AddRecycledIdempotent | hooks/use-quiz-questions.ts:94-113 | recycling keeps tempIds unique, recycling the same question twice equals recycling it once, and afterwards the recycled tempId is present |
| QuizQuestions.RecycleGuardIgnoresIds | hooks/use-quiz-questions.ts:94-101 | an entry `existing-a` with id `a` does not stop a recycled copy of question `a`, which leaves two entries with the same id |
| QuizQuestions.AvailableQuestions | hooks/use-quiz-questions.ts:50-52 | a question is available exactly when it is in the full list and no entry carries its id |
| QuizQuestions.AvailableQuestionsAppend | hooks/use-quiz-questions.ts:50-52 | the filter distributes over concatenation, so it keeps the order of the full list |
| QuizQuestions.AvailableWithoutIds | hooks/use-quiz-questions.ts:50-52 | entries without an id exclude nothing |
| QuizQuestions.RecycleConsumesAvailability | hooks/use-quiz-questions.ts:50-111 | after recycling a question, the available questions are the earlier ones minus those with that question's id |
| QuizQuestions.RecycleAvailableKeepsIdsUnique | hooks/use-quiz-questions.ts:50-111 | recycling a question taken from the available list keeps entry ids unique |
| QuizQuestions.FindByTempId | hooks/use-quiz-questions.ts:67 | finds nothing exactly when no entry has the tempId; otherwise the first entry of the list with that tempId |
| QuizQuestions.FindUniqueTempId | hooks/use-quiz-questions.ts:67 | with unique tempIds the search returns the entry at that tempId's position |
| QuizQuestions.RemoveQuestion | hooks/use-quiz-questions.ts:65-75 | never changes the list; when the tempId exists it opens the dialog on the first entry with that tempId, and otherwise changes nothing |
| QuizQuestions.WithoutTempId | hooks/use-quiz-questions.ts:83-85 | keeps exactly the entries whose tempId differs, so none with the tempId remains, and is never longer than the list |
| QuizQuestions.WithoutTempIdAppend | hooks/use-quiz-questions.ts:83-85 | the filter distributes over concatenation, so the surviving entries keep their relative order even when tempIds repeat |
| QuizQuestions.WithoutTempIdSingle | hooks/use-quiz-questions.ts:83-85 | on a single entry the filter keeps it exactly when its tempId differs |
| QuizQuestions.WithoutUniqueTempId | hooks/use-quiz-questions.ts:83-85 | with unique tempIds, filtering out one entry's tempId removes exactly that position and keeps the others in order |
| QuizQuestions.WithoutAbsentTempId | hooks/use-quiz-questions.ts:83-85 | filtering out an absent tempId leaves the list unchanged |
| QuizQuestions.ConfirmRemoveQuestion | hooks/use-quiz-questions.ts:77-92 | a no-op without a pending entry; otherwise it drops the entries with the pending tempId and closes the dialog |
| QuizQuestions.ConfirmRemoveKeepsOrder | hooks/use-quiz-questions.ts:77-92 | however the list is split in two, a confirmed removal gives the two parts filtered separately, in their original order |
| QuizQuestions.OnDeleteDialogOpenChange | components/quizzes/quiz-form.tsx:202-211 | opening or closing the dialog never changes the list; opening keeps the pending entry, and closing clears it so a later confirm does nothing |
| QuizQuestions.RemoveThenConfirm | hooks/use-quiz-questions.ts:65-92 | requesting and confirming removal of the entry at position i removes exactly that position and closes the dialog |
| QuizQuestions.TotalQuestions | hooks/use-quiz-questions.ts:47-48 | the number of entries in the working set |
| QuizQuestions.TotalQuestionsCounts | hooks/use-quiz-questions.ts:47-92 | the question count grows by one after an add, by one or zero after a recycle (zero when the copy is already present), and drops by one after a confirmed removal with unique tempIds |
| QuizQuestions.AddNewThenRemove | hooks/use-quiz-questions.ts:54-92 | adding a new entry and then removing it restores the earlier list |
| QuizQuestions.ToggleCollapse | hooks/use-quiz-questions.ts:115-121 | flips `isCollapsed` of exactly the entries with the tempId and leaves every other field and entry unchanged |
| QuizQuestions.ToggleCollapseTwice | hooks/use-quiz-questions.ts:115-121 | toggling twice restores the state |
| QuizQuestions.ReorderQuestions | hooks/use-quiz-questions.ts:123-125 | the list becomes the given order verbatim, without any permutation check, and the dialog is untouched |
| QuizForm.ArrayMove | components/quizzes/quiz-form.tsx:77 | same length and multiset; the moved element is at the target, and removing it there gives the list with it removed at the source |
| QuizForm.ArrayMoveBack | components/quizzes/quiz-form.tsx:77 | moving back from the target to the source restores the list |
| QuizForm.FindIndex | components/quizzes/quiz-form.tsx:74-75 | -1 exactly when no entry has the tempId; otherwise the first position with it |
| QuizForm.HandleDragEnd | components/quizzes/quiz-form.tsx:70-80 | no target, or a target equal to the dragged entry, changes nothing; otherwise the result is a permutation, the dragged entry lands at the target's position, and the other entries keep their relative order |
| QuizForm.PermutationKeepsTempIdsUnique | components/quizzes/quiz-form.tsx:77-78 | any reorder with the same multiset of entries keeps tempIds unique |
| QuizForm.DragEndKeepsTempIdsUnique | components/quizzes/quiz-form.tsx:70-80 | a drag end keeps tempIds unique |
| QuizForm.SubmitDisabled | components/quizzes/quiz-form.tsx:248 | the submit button is disabled while submitting or when there is no question |
| QuizForm.ShowsRequiredHint | components/quizzes/quiz-form.tsx:228-232 | the "at least one question" hint shows exactly when there is no question |
| QuizForm.SubmitGate | components/quizzes/quiz-form.tsx:228-248 | submit is enabled exactly when not submitting and the schema's "At least one question is required" check passes on the working set; the hint shows exactly when that check fails |
| FieldRules.NameIssues | lib/schemas/quiz-schema.ts:5-9 | a name has no issue exactly when its length is 3 to 100, with 100 included; every issue sits on the name |
| FieldRules.PairIssues | lib/schemas/quiz-schema.ts:13-20 | a question has no issue exactly when its text has at least 5 characters and its answer at least 3; issues sit under that array element |
| FieldRules.ArrayIssues | lib/schemas/quiz-schema.ts:10-24 | an array has no issue exactly when every element passes |
| QuizSchema.Parse | lib/schemas/quiz-schema.ts:3-29 | the form is accepted exactly when the name, every question and the non-empty list pass; "At least one question is required" is reported on `questions` exactly when there is none |
| QuizSchema.NameBoundaries | lib/schemas/quiz-schema.ts:5-9 | names of 3 and 100 characters are accepted, and names of 2 and 101 are rejected |
| QuizValidation.ParseCreate | lib/validations/quiz.ts:3-31 | accepted exactly when the name and every new question pass and there is a new question or an existing id; the count issue sits on `newQuestions` exactly when both lists are empty |
| QuizValidation.EditFieldIssues | lib/validations/quiz.ts:33-67 | no field issue exactly when the name and every existing and new question pass |
| QuizValidation.ParseEdit | lib/validations/quiz.ts:33-77 | accepted exactly when all fields pass and one of the three lists is non-empty; the count issue sits on `existingQuestions` exactly when all three are empty |
| QuizValidation.CountRefinementsMonotone | lib/validations/quiz.ts:24-77 | appending to any list never turns a passing count check into a failing one |
| Strings.NatToStringInjective | hooks/facade/use-create-quiz-form.ts:48 | different indices render as different decimal strings |
| Strings.DashSplit | hooks/facade/use-create-quiz-form.ts:48 | two digit strings joined by `-` split back uniquely, so a generated id determines its clock reading and index |
| QuizSubmit.GeneratedIdsDistinct | hooks/facade/use-create-quiz-form.ts:48 | ids generated at different positions differ, whatever the clock read for each |
| QuizSubmit.FinalId | hooks/facade/use-create-quiz-form.ts:48 | never empty; a non-empty id is kept, and a missing or empty one is replaced by an id of the generated form |
| QuizSubmit.FinalQuestions | hooks/facade/use-create-quiz-form.ts:47-51 | same length and order as the form entries, with text and answer copied; a non-empty id is kept, and a missing or empty one becomes `q-<clock(i)>-<i>` |
| QuizSubmit.FinalIdsDistinct | hooks/facade/use-edit-quiz-form.ts:54-58 | when the kept ids are distinct and none has the generated form `q-<digits>-<digits>`, all final ids are distinct, whatever the clock reads |
| QuizSubmit.NameTakenOnCreate | hooks/facade/use-create-quiz-form.ts:34-36 | some loaded quiz has the name, compared after lower-casing both; never when the list is not loaded |
| QuizSubmit.NameTakenOnEdit | hooks/facade/use-edit-quiz-form.ts:40-43 | some loaded quiz other than the edited one has the name, compared after lower-casing both; never when the list is not loaded |
| QuizSubmit.NameChecksAgree | hooks/facade/use-edit-quiz-form.ts:40-43 | a name the edit check refuses is refused on create too; the two checks agree when no loaded quiz has the edited id; an unloaded list refuses nothing |
| CreateQuizForm.InitialValues | hooks/facade/use-create-quiz-form.ts:20-26 | the form starts with no name and no questions, which the schema rejects for the missing question |
| CreateQuizForm.OnSubmit | hooks/facade/use-create-quiz-form.ts:33-56 | a name taken by a loaded quiz, ignoring case, gives the name-field error and no request; otherwise it sends one create request with the name and the final questions |
| CreateQuizForm.HandleSubmit | hooks/facade/use-create-quiz-form.ts:20-56 | values the schema rejects never reach the handler and values it accepts always do; a create request always carries a valid name, at least one valid question, and a name no loaded quiz has |
| CreateQuizForm.DuplicateNames | hooks/facade/use-create-quiz-form.ts:34-44 | a name equal to a loaded quiz's name in any case is refused, and with no quiz list loaded a create request is always made |
| EditQuizForm.InitialValues | hooks/facade/use-edit-quiz-form.ts:20-32 | the form starts with the quiz's name and one collapsed entry per question, in order, with id, text and answer copied and tempId `existing-<id>` |
| EditQuizForm.SeedRoundTrip | hooks/facade/use-edit-quiz-form.ts:22-58 | submitting the seeded entries unchanged sends back the quiz's own questions when their ids are non-empty |
| EditQuizForm.SeedTempIds | hooks/facade/use-edit-quiz-form.ts:24-30 | the seeded tempIds are unique exactly when the quiz's question ids are, and none of the quiz's questions is offered for recycling |
| EditQuizForm.OnSubmit | hooks/facade/use-edit-quiz-form.ts:39-66 | a name taken by another quiz, ignoring case, gives the name-field error and no request; otherwise it sends one update request for this quiz's id with the name and the final questions |
| EditQuizForm.HandleSubmit | hooks/facade/use-edit-quiz-form.ts:20-66 | values the schema rejects never reach the handler and values it accepts always do; an update request targets this quiz and carries a valid name, a name no other quiz has, and the final questions of the form, at least one and each valid |
| EditQuizForm.OwnNameAccepted | hooks/facade/use-edit-quiz-form.ts:40-43 | keeping the quiz's own name in any case is accepted when no other quiz has it |
| EditQuizForm.OtherNameRefused | hooks/facade/use-edit-quiz-form.ts:40-51 | another quiz's name in any case is refused with the name-field error |
| PlayQuiz.Start | hooks/facade/use-play-quiz.ts:42-53 | the player starts at index 0 with nothing revealed and no touch recorded, over the quiz's questions or none |
| PlayQuiz.QuizLoaded | hooks/facade/use-play-quiz.ts:40-51 | a (re)loaded quiz replaces the question list, or empties it when no quiz arrives, and keeps the cursor, the revealed set and the touch state |
| PlayQuiz.LoadBeforeInputReachable | hooks/facade/use-play-quiz.ts:40-53 | a non-empty quiz loading before any input gives the same state as starting with it, which satisfies the invariant |
| PlayQuiz.LoadAfterKeysUnreachable | hooks/facade/use-play-quiz.ts:137-157 | space and ArrowRight before a one-question quiz loads leave a state outside the invariant with no current question; ArrowLeft brings it back |
| PlayQuiz.CurrentQuestion | hooks/facade/use-play-quiz.ts:52 | the question at the cursor, present exactly when the index is within the list |
| PlayQuiz.IsAnswerRevealed | hooks/facade/use-play-quiz.ts:54 | the current index is in the revealed set |
| PlayQuiz.CanGoPrevious | hooks/facade/use-play-quiz.ts:56 | the current index is above 0 |
| PlayQuiz.IsLastQuestion | hooks/facade/use-play-quiz.ts:57 | the current index is the last position of the list (-1 for an empty list) |
| PlayQuiz.CanGoNext | hooks/facade/use-play-quiz.ts:59 | the answer is revealed and this is not the last question |
| PlayQuiz.ShowEndMessage | hooks/facade/use-play-quiz.ts:61 | this is the last question and its answer is revealed |
| PlayQuiz.FlagsMatchHandlers | hooks/facade/use-play-quiz.ts:54-80 | Previous changes the state exactly when `canGoPrevious`, Next exactly when `canGoNext`, and reveal leaves it unchanged exactly when the answer is already revealed |
| PlayQuiz.ReachableStatus | hooks/facade/use-play-quiz.ts:54-61 | in a reachable state exactly one of: answer hidden, Next offered, end message; once revealed only the last question withholds Next; the end message means every answer was revealed |
| PlayQuiz.HandlePrevious | hooks/facade/use-play-quiz.ts:66-70 | steps back by one exactly when the index is above 0, and otherwise changes nothing |
| PlayQuiz.HandleNext | hooks/facade/use-play-quiz.ts:72-76 | steps forward by one exactly when the answer is revealed and this is not the last question, and otherwise changes nothing |
| PlayQuiz.HandleRevealAnswer | hooks/facade/use-play-quiz.ts:78-80 | adds the current index to the revealed set and leaves the cursor, the questions and the touch state unchanged |
| PlayQuiz.RevealIdempotent | hooks/facade/use-play-quiz.ts:78-80 | revealing twice equals revealing once, and no index is ever removed |
| PlayQuiz.EndMessageMeansNoNext | hooks/facade/use-play-quiz.ts:57-61 | the end message shows exactly on the last question once revealed, and then Next is disabled |
| PlayQuiz.StartReachable | hooks/facade/use-play-quiz.ts:42-56 | a player started on a non-empty quiz satisfies the invariant: index in range, and every earlier answer revealed |
| PlayQuiz.HandlersKeepInvariant | hooks/facade/use-play-quiz.ts:56-80 | previous, next and reveal keep the invariant, so the index stays within the questions |
| PlayQuiz.StepsUndo | hooks/facade/use-play-quiz.ts:66-76 | next then previous, or previous then next, returns to the same state |
| PlayQuiz.PlayThrough | hooks/facade/use-play-quiz.ts:56-80 | from any reachable state, revealing and stepping forward always ends with the end message showing |
| PlayQuiz.EmptyQuizCursorEscapes | hooks/facade/use-play-quiz.ts:137-157 | on an empty quiz, space then ArrowRight moves the cursor to 1 |
| PlayQuiz.OnTouchStart | hooks/facade/use-play-quiz.ts:112-115 | records the start coordinate, clears the end coordinate, and changes nothing else |
| PlayQuiz.OnTouchMove | hooks/facade/use-play-quiz.ts:117-119 | records the end coordinate and changes nothing else |
| PlayQuiz.Classify | hooks/facade/use-play-quiz.ts:124-126 | a left swipe exactly when start − end exceeds 50, a right swipe exactly when it is below −50, and no swipe within ±50 |
| PlayQuiz.SwipeExamples | hooks/facade/use-play-quiz.ts:122-126 | fractional coordinates count: a distance of 50.5 is a swipe, exactly 50 is not, and a coordinate of 0.5 is not ignored |
| PlayQuiz.OnTouchEnd | hooks/facade/use-play-quiz.ts:121-135 | a missing or zero coordinate does nothing; otherwise a left swipe acts as Next, a right swipe as Previous (each only when allowed), and anything shorter does nothing |
| PlayQuiz.TouchAtZeroIgnored | hooks/facade/use-play-quiz.ts:112-122 | a touch starting or ending at coordinate 0 is ignored |
| PlayQuiz.TapIgnored | hooks/facade/use-play-quiz.ts:112-122 | a touch without a move is ignored |
| PlayQuiz.OnKeyDown | hooks/facade/use-play-quiz.ts:137-147 | ArrowLeft acts as Previous, ArrowRight as Next, space reveals (a no-op when already revealed), and any other key does nothing |
| PlayQuiz.InputsKeepInvariant | hooks/facade/use-play-quiz.ts:112-147 | keys and touches keep the player's invariant |

## Left out

- Network requests, react-query caching, and mutation success/failure paths are not modelled: `lib/api.ts` and `lib/api/quiz-api.ts` are not part of this model. A submit ends in a `CreateRequest` or `UpdateRequest` value.
- Toasts, router navigation, `console` logging, `handleShare` and `handleBackToQuizzes` are left out. They are side effects with no state the model tracks.
- `Date.now()` and `Math.random()` are parameters. A new entry's tempId `new-<stamp>` is assumed fresh where a lemma needs it. The clock readings for generated ids are arbitrary natural numbers, so no lemma relies on the clock being monotone.
- PlayQuiz.Classify: coordinates are exact reals, so the rounding of the double subtraction `touchStart - touchEnd` is not modelled.
- Strings.ToLower: an ASCII case fold, not JavaScript's full Unicode `toLowerCase`.
- String lengths count characters, whereas JavaScript counts UTF-16 code units.
- `progressPercentage` and `progress-bar.tsx` are left out because they are floating-point percentages.
- dnd-kit's sensors and collision detection are left out. `arrayMove`'s source is not part of this model, so its remove-then-insert behaviour is an assumption.
- QuizForm.HandleDragEnd: requires the dragged and target ids to be tempIds of the list. The sortable context registers exactly those ids (components/quizzes/quiz-form.tsx:178), so the code's `findIndex` result of -1 is not modelled.
- zod's issue order, issue codes, and type checks of non-string values are left out. Issues are a set of (path, message), and acceptance means an empty set. The refinement is taken to run after non-fatal field issues, as zod does for such issues.
- The `totalPages > 1` test at lib/utils.ts:73 always holds at that point, so it is not modelled as a branch.
- `cn` (class-name merging), the focus-trap hook, `lib/providers.tsx`, and the purely presentational components and pages are left out.
- The quiz-delete dialog in `hooks/facade/use-quizzes-table.ts` is left out, because its transitions depend on a network outcome.
- The "update globally or create a new version" choice is left out. `question-edit-dialog.tsx` only passes two callbacks, and no shown hook decides between them.

=== FILE: play_quiz.dfy ===
/** The quiz player (hooks/facade/use-play-quiz.ts): a cursor over the
    quiz's questions, the set of revealed positions, and the last touch
    coordinates. Buttons, swipes and keys all go through the same three
    guarded handlers. */
module PlayQuiz {
  import opened Types

  /** Touch coordinates are CSS pixels (`clientX`, a double). */
  const MinSwipeDistance: real := 50.0

  datatype Player = Player(
    questions: seq<Question>,
    currentIndex: int,
    revealed: set<int>,
    touchStart: Option<real>,
    touchEnd: Option<real>)

  /** The state when the page mounts; a quiz that is not loaded has no
      questions. */
  function Start(quiz: Option<Quiz>): (p: Player)
    ensures p.currentIndex == 0 && p.revealed == {}
    ensures p.touchStart.None? && p.touchEnd.None?
    ensures p.questions == if quiz.Some? then quiz.value.questions else []
  {
    Player(if quiz.Some? then quiz.value.questions else [], 0, {}, None, None)
  }

  /** A (re)fetch of the quiz replaces the question list under the same
      cursor and revealed set; nothing resets them. */
  function QuizLoaded(p: Player, quiz: Option<Quiz>): (r: Player)
    ensures r.questions == Start(quiz).questions
    ensures r.(questions := p.questions) == p
  {
    p.(questions := if quiz.Some? then quiz.value.questions else [])
  }

  /** The question under the cursor, if the cursor is on one. */
  function CurrentQuestion(p: Player): (r: Option<Question>)
    ensures r.Some? <==> 0 <= p.currentIndex < |p.questions|
    ensures r.Some? ==> r.value == p.questions[p.currentIndex]
  {
    if 0 <= p.currentIndex < |p.questions| then Some(p.questions[p.currentIndex]) else None
  }

  predicate IsAnswerRevealed(p: Player)
  {
    p.currentIndex in p.revealed
  }

  predicate CanGoPrevious(p: Player)
  {
    p.currentIndex > 0
  }

  predicate IsLastQuestion(p: Player)
  {
    p.currentIndex == |p.questions| - 1
  }

  predicate CanGoNext(p: Player)
  {
    IsAnswerRevealed(p) && !IsLastQuestion(p)
  }

  predicate ShowEndMessage(p: Player)
  {
    IsLastQuestion(p) && IsAnswerRevealed(p)
  }

  /** Steps back when that is allowed, otherwise does nothing. */
  function HandlePrevious(p: Player): (r: Player)
    ensures CanGoPrevious(p) ==> r == p.(currentIndex := p.currentIndex - 1)
    ensures !CanGoPrevious(p) ==> r == p
    ensures r.revealed == p.revealed && r.questions == p.questions
  {
    if CanGoPrevious(p) then p.(currentIndex := p.currentIndex - 1) else p
  }

  /** Steps forward when the current answer is revealed and this is not the
      last question, otherwise does nothing. */
  function HandleNext(p: Player): (r: Player)
    ensures CanGoNext(p) ==> r == p.(currentIndex := p.currentIndex + 1)
    ensures !CanGoNext(p) ==> r == p
    ensures r.revealed == p.revealed && r.questions == p.questions
  {
    if CanGoNext(p) then p.(currentIndex := p.currentIndex + 1) else p
  }

  /** Marks the current position as revealed; nothing is ever un-revealed. */
  function HandleRevealAnswer(p: Player): (r: Player)
    ensures r.revealed == p.revealed + {p.currentIndex}
    ensures IsAnswerRevealed(r)
    ensures r.currentIndex == p.currentIndex && r.questions == p.questions
    ensures r.touchStart == p.touchStart && r.touchEnd == p.touchEnd
  {
    p.(revealed := p.revealed + {p.currentIndex})
  }

  lemma RevealIdempotent(p: Player)
    ensures HandleRevealAnswer(HandleRevealAnswer(p)) == HandleRevealAnswer(p)
    ensures p.revealed <= HandleRevealAnswer(p).revealed
  {
  }

  /** The end message shows exactly on the last question once its answer is
      revealed, and then there is no next step. */
  lemma EndMessageMeansNoNext(p: Player)
    ensures ShowEndMessage(p) <==> p.currentIndex == |p.questions| - 1 && p.currentIndex in p.revealed
    ensures ShowEndMessage(p) ==> !CanGoNext(p) && HandleNext(p) == p
  {
  }

  /** The invariant of a mounted player over a non-empty quiz: the cursor is
      on a question, and every earlier question has been revealed. */
  predicate Reachable(p: Player)
  {
    && |p.questions| >= 1
    && 0 <= p.currentIndex < |p.questions|
    && forall k :: 0 <= k < p.currentIndex ==> k in p.revealed
  }

  lemma StartReachable(quiz: Quiz)
    requires |quiz.questions| >= 1
    ensures Reachable(Start(Some(quiz)))
  {
  }

  /** The page usually mounts before the quiz arrives; when nothing was
      pressed in between, the load yields the same state as mounting with
      the quiz. */
  lemma LoadBeforeInputReachable(quiz: Quiz)
    requires |quiz.questions| >= 1
    ensures QuizLoaded(Start(None), Some(quiz)) == Start(Some(quiz))
    ensures Reachable(QuizLoaded(Start(None), Some(quiz)))
  {
  }

  /** Keys pressed before the quiz arrives move the cursor over the empty
      list; a one-question quiz loaded afterwards leaves the cursor past its
      end, with no current question, until ArrowLeft brings it back. */
  lemma LoadAfterKeysUnreachable(quiz: Quiz)
    requires |quiz.questions| == 1
    ensures var p := QuizLoaded(OnKeyDown(OnKeyDown(Start(None), " "), "ArrowRight"), Some(quiz));
      && !Reachable(p)
      && CurrentQuestion(p).None?
      && Reachable(OnKeyDown(p, "ArrowLeft"))
  {
    var p := QuizLoaded(OnKeyDown(OnKeyDown(Start(None), " "), "ArrowRight"), Some(quiz));
    assert p.currentIndex == 1 && p.revealed == {0};
    assert OnKeyDown(p, "ArrowLeft").currentIndex == 0;
  }

  /** Every handler keeps the invariant. */
  lemma HandlersKeepInvariant(p: Player)
    requires Reachable(p)
    ensures Reachable(HandlePrevious(p))
    ensures Reachable(HandleNext(p))
    ensures Reachable(HandleRevealAnswer(p))
  {
  }

  /** Stepping forward and back, or back and forward, returns to the same
      state in a reachable player. */
  lemma StepsUndo(p: Player)
    requires Reachable(p)
    ensures CanGoNext(p) ==> HandlePrevious(HandleNext(p)) == p
    ensures CanGoPrevious(p) ==> HandleNext(HandlePrevious(p)) == p
  {
    if CanGoPrevious(p) {
      var q := HandlePrevious(p);
      assert q.currentIndex in q.revealed;
      assert CanGoNext(q);
    }
  }

  /** Revealing and stepping forward as often as possible ends on the last
      question with the end message showing. */
  function PlayThrough(p: Player): (r: Player)
    requires Reachable(p)
    ensures Reachable(r) && ShowEndMessage(r)
    decreases |p.questions| - p.currentIndex
  {
    var q := HandleRevealAnswer(p);
    HandlersKeepInvariant(p);
    if CanGoNext(q) then
      HandlersKeepInvariant(q);
      PlayThrough(HandleNext(q))
    else q
  }

  /** Each flag says exactly when its handler changes the state. */
  lemma FlagsMatchHandlers(p: Player)
    ensures CanGoPrevious(p) <==> HandlePrevious(p) != p
    ensures CanGoNext(p) <==> HandleNext(p) != p
    ensures IsAnswerRevealed(p) <==> HandleRevealAnswer(p) == p
  {
    if !IsAnswerRevealed(p) {
      assert p.currentIndex in HandleRevealAnswer(p).revealed;
    }
  }

  /** In a reachable player the screen is in exactly one of three states:
      answer hidden, Next offered, or the end message. Once the answer is
      shown, only the last question withholds Next, and the end message
      means every answer of the quiz has been revealed. */
  lemma ReachableStatus(p: Player)
    requires Reachable(p)
    ensures !IsAnswerRevealed(p) || CanGoNext(p) || ShowEndMessage(p)
    ensures !(CanGoNext(p) && ShowEndMessage(p))
    ensures IsAnswerRevealed(p) <==> CanGoNext(p) || ShowEndMessage(p)
    ensures IsLastQuestion(p) <==> !CanGoNext(HandleRevealAnswer(p))
    ensures ShowEndMessage(p) ==> forall k :: 0 <= k < |p.questions| ==> k in p.revealed
  {
  }

  /** Without questions the page shows "Quiz Not Found", but the key handler
      is still installed: space then ArrowRight moves the cursor off the
      (empty) list. */
  lemma EmptyQuizCursorEscapes()
    ensures OnKeyDown(OnKeyDown(Start(None), " "), "ArrowRight").currentIndex == 1
  {
  }

  // ---------------------------------------------------------------------------
  // Touch and keyboard input
  // ---------------------------------------------------------------------------

  /** A new touch records its start and forgets the previous end. */
  function OnTouchStart(p: Player, clientX: real): (r: Player)
    ensures r.touchStart == Some(clientX) && r.touchEnd.None?
    ensures r.(touchStart := p.touchStart, touchEnd := p.touchEnd) == p
  {
    p.(touchEnd := None, touchStart := Some(clientX))
  }

  /** Every move overwrites the end coordinate; the start stays. */
  function OnTouchMove(p: Player, clientX: real): (r: Player)
    ensures r.touchEnd == Some(clientX)
    ensures r.(touchEnd := p.touchEnd) == p
  {
    p.(touchEnd := Some(clientX))
  }

  /** JavaScript truthiness of an optional coordinate: missing and 0 are
      both false. */
  predicate Truthy(x: Option<real>)
  {
    x.Some? && x.value != 0.0
  }

  datatype Swipe = SwipeLeft | SwipeRight | NoSwipe

  /** Horizontal distance `start - end` beyond 50 units in either direction. */
  function Classify(start: real, end: real): (s: Swipe)
    ensures s == SwipeLeft <==> start - end > MinSwipeDistance
    ensures s == SwipeRight <==> start - end < -MinSwipeDistance
    ensures s == NoSwipe <==> -MinSwipeDistance <= start - end <= MinSwipeDistance
  {
    var distance := start - end;
    if distance > MinSwipeDistance then SwipeLeft
    else if distance < -MinSwipeDistance then SwipeRight
    else NoSwipe
  }

  /** End of a touch: a left swipe acts as Next, a right swipe as Previous,
      each only when allowed. Both handlers read the state of the render the
      touch ended in; at most one of the two swipes holds. */
  function OnTouchEnd(p: Player): (r: Player)
    ensures !Truthy(p.touchStart) || !Truthy(p.touchEnd) ==> r == p
    ensures Truthy(p.touchStart) && Truthy(p.touchEnd) ==>
      var s := Classify(p.touchStart.value, p.touchEnd.value);
      && (s == NoSwipe ==> r == p)
      && (s == SwipeLeft ==> r == HandleNext(p))
      && (s == SwipeRight ==> r == HandlePrevious(p))
  {
    if !Truthy(p.touchStart) || !Truthy(p.touchEnd) then p
    else
      var s := Classify(p.touchStart.value, p.touchEnd.value);
      if s == SwipeLeft && CanGoNext(p) then HandleNext(p)
      else if s == SwipeRight && CanGoPrevious(p) then HandlePrevious(p)
      else p
  }

  /** A touch that starts or ends at coordinate 0 is ignored, however long
      the swipe. */
  lemma TouchAtZeroIgnored(p: Player, x: real)
    ensures OnTouchEnd(OnTouchMove(OnTouchStart(p, 0.0), x)) == OnTouchMove(OnTouchStart(p, 0.0), x)
    ensures OnTouchEnd(OnTouchMove(OnTouchStart(p, x), 0.0)) == OnTouchMove(OnTouchStart(p, x), 0.0)
  {
  }

  /** A touch without movement does nothing. */
  lemma TapIgnored(p: Player, x: real)
    ensures OnTouchEnd(OnTouchStart(p, x)) == OnTouchStart(p, x)
  {
  }

  /** Sub-pixel coordinates count: half a pixel past the threshold is a
      swipe, exactly the threshold is not, and a touch at x = 0.5 is kept. */
  lemma SwipeExamples()
    ensures Classify(100.0, 49.5) == SwipeLeft
    ensures Classify(100.0, 50.0) == NoSwipe
    ensures Classify(0.5, 51.0) == SwipeRight
    ensures Truthy(Some(0.5))
  {
  }

  /** The key handler: ArrowLeft goes back when allowed, ArrowRight goes
      forward when allowed, space reveals an answer not yet revealed. */
  function OnKeyDown(p: Player, key: string): (r: Player)
    ensures key == "ArrowLeft" ==> r == HandlePrevious(p)
    ensures key == "ArrowRight" ==> r == HandleNext(p)
    ensures key == " " ==> r == HandleRevealAnswer(p)
    ensures key != "ArrowLeft" && key != "ArrowRight" && key != " " ==> r == p
  {
    if key == "ArrowLeft" && CanGoPrevious(p) then HandlePrevious(p)
    else if key == "ArrowRight" && CanGoNext(p) then HandleNext(p)
    else if key == " " && !IsAnswerRevealed(p) then HandleRevealAnswer(p)
    else p
  }

  /** Every input keeps the invariant of a reachable player. */
  lemma InputsKeepInvariant(p: Player, key: string, x: real)
    requires Reachable(p)
    ensures Reachable(OnKeyDown(p, key))
    ensures Reachable(OnTouchEnd(p))
    ensures Reachable(OnTouchStart(p, x)) && Reachable(OnTouchMove(p, x))
  {
    HandlersKeepInvariant(p);
  }
}

=== FILE: quiz_form.dfy ===
/** The quiz form component (components/quizzes/quiz-form.tsx): reordering
    by drag and drop, and when the submit button is enabled. */
module QuizForm {
  import opened Types
  import opened QuizQuestions
  import QuizSchema

  function RemoveAt<T>(a: seq<T>, i: nat): (r: seq<T>)
    requires i < |a|
    ensures |r| == |a| - 1
  {
    a[..i] + a[i + 1..]
  }

  /** The drag library's `arrayMove`: take the element at `from` out and
      insert it so that it lands at `to`. */
  function ArrayMove<T>(a: seq<T>, from: nat, to: nat): (r: seq<T>)
    requires from < |a| && to < |a|
    ensures |r| == |a|
    ensures r[to] == a[from]
    ensures RemoveAt(r, to) == RemoveAt(a, from)
    ensures multiset(r) == multiset(a)
  {
    var rest := RemoveAt(a, from);
    var r := rest[..to] + [a[from]] + rest[to..];
    assert r[..to] + r[to + 1..] == rest;
    calc {
      multiset(r);
      multiset(rest[..to]) + multiset([a[from]]) + multiset(rest[to..]);
      { assert rest == rest[..to] + rest[to..]; }
      multiset(rest) + multiset([a[from]]);
      { assert a == a[..from] + [a[from]] + a[from + 1..]; }
      multiset(a);
    }
    r
  }

  /** Moving an element back to where it came from restores the list. */
  lemma ArrayMoveBack<T>(a: seq<T>, from: nat, to: nat)
    requires from < |a| && to < |a|
    ensures ArrayMove(ArrayMove(a, from, to), to, from) == a
  {
    var b := ArrayMove(a, from, to);
    var c := ArrayMove(b, to, from);
    assert RemoveAt(c, from) == RemoveAt(b, to) == RemoveAt(a, from);
    assert c[from] == b[to] == a[from];
    assert c == c[..from] + [c[from]] + c[from + 1..];
    assert a == a[..from] + [a[from]] + a[from + 1..];
    assert c[..from] == RemoveAt(c, from)[..from];
    assert a[..from] == RemoveAt(a, from)[..from];
    assert c[from + 1..] == RemoveAt(c, from)[from..];
    assert a[from + 1..] == RemoveAt(a, from)[from..];
  }

  /** Position of the first entry with tempId `t`, or -1. */
  function FindIndex(qs: seq<QuizQuestion>, t: string): (r: int)
    ensures -1 <= r < |qs|
    ensures r == -1 <==> !HasTempId(qs, t)
    ensures r >= 0 ==> qs[r].tempId == t && forall j :: 0 <= j < r ==> qs[j].tempId != t
    decreases |qs|
  {
    if |qs| == 0 then -1
    else if qs[0].tempId == t then 0
    else
      HasTempIdCons(qs, t);
      var k := FindIndex(qs[1..], t);
      if k == -1 then -1
      else
        assert forall j :: 0 < j < k + 1 ==> qs[j] == qs[1..][j - 1];
        k + 1
  }

  /** The drop handler. The drag library only reports items of the sortable
      list, whose ids are the entries' tempIds. Dropping outside any item or
      onto the dragged item itself leaves the order alone. */
  function HandleDragEnd(m: QuestionManager, activeId: string, overId: Option<string>): (r: QuestionManager)
    requires HasTempId(m.questions, activeId)
    requires overId.Some? ==> HasTempId(m.questions, overId.value)
    ensures overId.None? || overId.value == activeId ==> r == m
    ensures r.deleteDialog == m.deleteDialog
    ensures |r.questions| == |m.questions|
    ensures multiset(r.questions) == multiset(m.questions)
    ensures overId.Some? && overId.value != activeId ==>
      var oldIndex, newIndex := FindIndex(m.questions, activeId), FindIndex(m.questions, overId.value);
      && r.questions[newIndex] == m.questions[oldIndex]
      && RemoveAt(r.questions, newIndex) == RemoveAt(m.questions, oldIndex)
  {
    if overId.Some? && activeId != overId.value then
      var oldIndex := FindIndex(m.questions, activeId);
      var newIndex := FindIndex(m.questions, overId.value);
      ReorderQuestions(m, ArrayMove(m.questions, oldIndex, newIndex))
    else m
  }

  lemma DuplicateCountsTwice<T>(s: seq<T>, i: nat, j: nat)
    requires i < j < |s|
    ensures s[i] == s[j] ==> multiset(s)[s[i]] >= 2
  {
    assert s == s[..j] + [s[j]] + s[j + 1..];
    assert s[i] in s[..j];
  }

  lemma UniqueCountsOnce(a: seq<QuizQuestion>, x: nat)
    requires UniqueTempIds(a) && x < |a|
    ensures multiset(a)[a[x]] == 1
  {
    assert a == a[..x] + [a[x]] + a[x + 1..];
    forall k | 0 <= k < |a| && k != x ensures a[k] != a[x] {
      assert a[k].tempId != a[x].tempId;
    }
    assert a[x] !in a[..x];
    assert a[x] !in a[x + 1..];
  }

  /** A permutation keeps tempIds unique. */
  lemma PermutationKeepsTempIdsUnique(a: seq<QuizQuestion>, b: seq<QuizQuestion>)
    requires multiset(a) == multiset(b) && UniqueTempIds(a)
    ensures UniqueTempIds(b)
  {
    forall i, j | 0 <= i < j < |b| ensures b[i].tempId != b[j].tempId {
      assert b[i] in multiset(a) && b[j] in multiset(a);
      var x :| 0 <= x < |a| && a[x] == b[i];
      var y :| 0 <= y < |a| && a[y] == b[j];
      DuplicateCountsTwice(b, i, j);
      UniqueCountsOnce(a, x);
    }
  }

  /** Dragging keeps tempIds unique. */
  lemma DragEndKeepsTempIdsUnique(m: QuestionManager, activeId: string, overId: Option<string>)
    requires HasTempId(m.questions, activeId)
    requires overId.Some? ==> HasTempId(m.questions, overId.value)
    requires UniqueTempIds(m.questions)
    ensures UniqueTempIds(HandleDragEnd(m, activeId, overId).questions)
  {
    PermutationKeepsTempIdsUnique(m.questions, HandleDragEnd(m, activeId, overId).questions);
  }

  /** The submit button is disabled while a request is pending or while the
      list is empty; the "At least one question is required" hint shows
      exactly in the second case. */
  predicate SubmitDisabled(isSubmitting: bool, totalQuestions: nat)
  {
    isSubmitting || totalQuestions == 0
  }

  predicate ShowsRequiredHint(totalQuestions: nat)
  {
    totalQuestions == 0
  }

  /** An enabled submit button means the schema's count refinement passes;
      the hint shows exactly when that refinement fails. */
  lemma SubmitGate(isSubmitting: bool, m: QuestionManager, name: string)
    ensures !SubmitDisabled(isSubmitting, TotalQuestions(m)) <==>
      !isSubmitting && QuizSchema.QuestionsRequired !in QuizSchema.Parse(QuizFormData(name, m.questions))
    ensures ShowsRequiredHint(TotalQuestions(m)) <==>
      QuizSchema.QuestionsRequired in QuizSchema.Parse(QuizFormData(name, m.questions))
  {
  }
}

=== FILE: quiz_questions.dfy ===
/** The working set of the quiz form (hooks/use-quiz-questions.ts): an
    ordered list of entries plus the pending-delete dialog. Each handler is
    a state transition; the clock and random source that make up a new
    entry's tempId are a `stamp` parameter. */
module QuizQuestions {
  import opened Types

  /** The confirmation dialog for removing an entry. */
  datatype DeleteDialog = DeleteDialog(open: bool, questionToDelete: Option<QuizQuestion>)

  const ClosedDialog := DeleteDialog(false, None)

  /** The hook's state: the form's `questions` field and the dialog. */
  datatype QuestionManager = QuestionManager(questions: seq<QuizQuestion>, deleteDialog: DeleteDialog)

  /** The state right after the hook mounts over the given form values. */
  function Mount(questions: seq<QuizQuestion>): QuestionManager
  {
    QuestionManager(questions, ClosedDialog)
  }

  function TotalQuestions(m: QuestionManager): nat
  {
    |m.questions|
  }

  /** No two entries refer to the same persisted question. */
  predicate UniqueIds(qs: seq<QuizQuestion>)
  {
    forall i, j :: 0 <= i < j < |qs| && qs[i].id.Some? ==> qs[i].id != qs[j].id
  }

  // ---------------------------------------------------------------------------
  // Adding entries
  // ---------------------------------------------------------------------------

  function NewTempId(stamp: string): string
  {
    "new-" + stamp
  }

  function RecycledTempId(questionId: string): string
  {
    "recycled-" + questionId
  }

  /** Prepends a blank, expanded entry without a persisted id. */
  function AddNewQuestion(m: QuestionManager, stamp: string): (r: QuestionManager)
    ensures |r.questions| == |m.questions| + 1
    ensures r.questions[0] == QuizQuestion(None, "", "", false, NewTempId(stamp))
    ensures r.questions[1..] == m.questions
    ensures r.deleteDialog == m.deleteDialog
  {
    m.(questions := [QuizQuestion(None, "", "", false, NewTempId(stamp))] + m.questions)
  }

  /** Prepends a collapsed copy of a persisted question, unless an entry
      with its recycled tempId is already present (then an error toast is
      shown and nothing changes). */
  function AddRecycledQuestion(m: QuestionManager, q: Question): (r: QuestionManager)
    ensures HasTempId(m.questions, RecycledTempId(q.id)) ==> r == m
    ensures !HasTempId(m.questions, RecycledTempId(q.id)) ==>
      && r.deleteDialog == m.deleteDialog
      && |r.questions| == |m.questions| + 1
      && r.questions[0] == QuizQuestion(Some(q.id), q.text, q.answer, true, RecycledTempId(q.id))
      && r.questions[1..] == m.questions
  {
    var newTempId := RecycledTempId(q.id);
    if HasTempId(m.questions, newTempId) then m
    else m.(questions := [QuizQuestion(Some(q.id), q.text, q.answer, true, newTempId)] + m.questions)
  }

  /** Adding a fresh blank entry keeps tempIds unique. */
  lemma AddNewKeepsTempIdsUnique(m: QuestionManager, stamp: string)
    requires UniqueTempIds(m.questions)
    requires !HasTempId(m.questions, NewTempId(stamp))
    ensures UniqueTempIds(AddNewQuestion(m, stamp).questions)
  {
    var r := AddNewQuestion(m, stamp).questions;
    forall i, j | 0 <= i < j < |r| ensures r[i].tempId != r[j].tempId {
      assert r[j] == m.questions[j - 1];
      if i > 0 { assert r[i] == m.questions[i - 1]; }
    }
  }

  /** Recycling keeps tempIds unique, and recycling the same question a
      second time changes nothing: it is listed once. */
  lemma AddRecycledIdempotent(m: QuestionManager, q: Question)
    ensures UniqueTempIds(m.questions) ==> UniqueTempIds(AddRecycledQuestion(m, q).questions)
    ensures AddRecycledQuestion(AddRecycledQuestion(m, q), q) == AddRecycledQuestion(m, q)
    ensures HasTempId(AddRecycledQuestion(m, q).questions, RecycledTempId(q.id))
  {
    var r := AddRecycledQuestion(m, q);
    if !HasTempId(m.questions, RecycledTempId(q.id)) {
      assert r.questions[0].tempId == RecycledTempId(q.id);
      if UniqueTempIds(m.questions) {
        forall i, j | 0 <= i < j < |r.questions| ensures r.questions[i].tempId != r.questions[j].tempId {
          assert r.questions[j] == m.questions[j - 1];
          if i > 0 { assert r.questions[i] == m.questions[i - 1]; }
        }
      }
    }
  }

  /** The duplicate guard looks at tempIds only: recycling a question that
      is already in the working set under another tempId (an entry seeded
      from the quiz being edited) lists it twice. The recycle picker only
      offers `AvailableQuestions`, which excludes it. */
  lemma RecycleGuardIgnoresIds()
    ensures var existing := QuizQuestion(Some("a"), "2 + 2?", "four", true, "existing-a");
      !UniqueIds(AddRecycledQuestion(Mount([existing]), Question("a", "2 + 2?", "four")).questions)
  {
    var existing := QuizQuestion(Some("a"), "2 + 2?", "four", true, "existing-a");
    var m := Mount([existing]);
    assert RecycledTempId("a") != "existing-a" by {
      assert RecycledTempId("a")[0] == 'r';
    }
    assert !HasTempId(m.questions, RecycledTempId("a"));
    var r := AddRecycledQuestion(m, Question("a", "2 + 2?", "four")).questions;
    assert r[0].id == r[1].id == Some("a");
  }

  // ---------------------------------------------------------------------------
  // Questions available for recycling
  // ---------------------------------------------------------------------------

  /** The persisted questions not yet referenced by any entry, in their
      original order. Entries without an id exclude nothing. */
  function AvailableQuestions(all: seq<Question>, qs: seq<QuizQuestion>): (r: seq<Question>)
    ensures forall q :: q in r <==> q in all && !HasId(qs, q.id)
    ensures |r| <= |all|
    decreases |all|
  {
    if |all| == 0 then []
    else
      var rest := AvailableQuestions(all[1..], qs);
      assert forall q :: q in all <==> q == all[0] || q in all[1..] by {
        assert all == [all[0]] + all[1..];
      }
      if HasId(qs, all[0].id) then rest else [all[0]] + rest
  }

  /** The filter keeps the order of the full list: it distributes over
      concatenation. */
  lemma {:induction false} AvailableQuestionsAppend(a: seq<Question>, b: seq<Question>, qs: seq<QuizQuestion>)
    ensures AvailableQuestions(a + b, qs) == AvailableQuestions(a, qs) + AvailableQuestions(b, qs)
    decreases |a|
  {
    if |a| == 0 {
      assert a + b == b;
    } else {
      assert (a + b)[0] == a[0];
      assert (a + b)[1..] == a[1..] + b;
      AvailableQuestionsAppend(a[1..], b, qs);
    }
  }

  /** A working set without persisted ids leaves every question available. */
  lemma {:induction false} AvailableWithoutIds(all: seq<Question>, qs: seq<QuizQuestion>)
    requires forall i :: 0 <= i < |qs| ==> qs[i].id.None?
    ensures AvailableQuestions(all, qs) == all
    decreases |all|
  {
    if |all| > 0 {
      AvailableWithoutIds(all[1..], qs);
      assert all == [all[0]] + all[1..];
    }
  }

  /** Recycling a question removes exactly that question's id from the
      available list. */
  lemma RecycleConsumesAvailability(all: seq<Question>, m: QuestionManager, q: Question)
    requires !HasTempId(m.questions, RecycledTempId(q.id))
    ensures forall x ::
      (x in AvailableQuestions(all, AddRecycledQuestion(m, q).questions)
       <==> x in AvailableQuestions(all, m.questions) && x.id != q.id)
  {
    var r := AddRecycledQuestion(m, q).questions;
    forall id ensures HasId(r, id) <==> HasId(m.questions, id) || id == q.id {
      if HasId(m.questions, id) {
        var i :| 0 <= i < |m.questions| && m.questions[i].id == Some(id);
        assert r[i + 1] == m.questions[i];
      }
      if HasId(r, id) && id != q.id {
        var i :| 0 <= i < |r| && r[i].id == Some(id);
        assert i > 0 && r[i] == m.questions[i - 1];
      }
      if id == q.id { assert r[0].id == Some(id); }
    }
  }

  /** Recycling only from the available list keeps persisted ids unique. */
  lemma RecycleAvailableKeepsIdsUnique(all: seq<Question>, m: QuestionManager, q: Question)
    requires UniqueIds(m.questions)
    requires q in AvailableQuestions(all, m.questions)
    ensures UniqueIds(AddRecycledQuestion(m, q).questions)
  {
    var r := AddRecycledQuestion(m, q).questions;
    if !HasTempId(m.questions, RecycledTempId(q.id)) {
      forall i, j | 0 <= i < j < |r| && r[i].id.Some? ensures r[i].id != r[j].id {
        assert r[j] == m.questions[j - 1];
        if i > 0 { assert r[i] == m.questions[i - 1]; }
      }
    }
  }

  // ---------------------------------------------------------------------------
  // Two-step removal
  // ---------------------------------------------------------------------------

  lemma HasTempIdCons(qs: seq<QuizQuestion>, t: string)
    requires |qs| > 0
    ensures HasTempId(qs, t) <==> qs[0].tempId == t || HasTempId(qs[1..], t)
  {
    if HasTempId(qs, t) && qs[0].tempId != t {
      var i :| 0 <= i < |qs| && qs[i].tempId == t;
      assert qs[1..][i - 1] == qs[i];
    }
    if HasTempId(qs[1..], t) {
      var i :| 0 <= i < |qs[1..]| && qs[1..][i].tempId == t;
      assert qs[i + 1] == qs[1..][i];
    }
  }

  /** No entry before position `k` has tempId `t`. */
  predicate NoTempIdBefore(qs: seq<QuizQuestion>, k: int, t: string)
    requires 0 <= k <= |qs|
  {
    forall j :: 0 <= j < k ==> qs[j].tempId != t
  }

  /** The first entry with tempId `t`, as `Array.prototype.find` returns it. */
  function FindByTempId(qs: seq<QuizQuestion>, t: string): (r: Option<QuizQuestion>)
    ensures r.None? <==> !HasTempId(qs, t)
    ensures r.Some? ==> r.value in qs && r.value.tempId == t
    ensures r.Some? ==> exists k :: 0 <= k < |qs| && r.value == qs[k] && NoTempIdBefore(qs, k, t)
    decreases |qs|
  {
    if |qs| == 0 then None
    else if qs[0].tempId == t then
      assert NoTempIdBefore(qs, 0, t);
      Some(qs[0])
    else
      HasTempIdCons(qs, t);
      var r := FindByTempId(qs[1..], t);
      assert r.Some? ==> exists k :: 0 <= k < |qs| && r.value == qs[k] && NoTempIdBefore(qs, k, t) by {
        if r.Some? {
          var k :| 0 <= k < |qs[1..]| && r.value == qs[1..][k] && NoTempIdBefore(qs[1..], k, t);
          assert qs[k + 1] == qs[1..][k];
          forall j | 0 <= j < k + 1 ensures qs[j].tempId != t {
            if j > 0 { assert qs[j] == qs[1..][j - 1]; }
          }
          assert NoTempIdBefore(qs, k + 1, t);
        }
      }
      r
  }

  /** With unique tempIds the entry found is the one at the tempId's position. */
  lemma {:induction false} FindUniqueTempId(qs: seq<QuizQuestion>, i: nat)
    requires UniqueTempIds(qs) && i < |qs|
    ensures FindByTempId(qs, qs[i].tempId) == Some(qs[i])
    decreases |qs|
  {
    if i > 0 {
      var tail := qs[1..];
      assert UniqueTempIds(tail) by {
        forall a, b | 0 <= a < b < |tail| ensures tail[a].tempId != tail[b].tempId {
          assert tail[a] == qs[a + 1] && tail[b] == qs[b + 1];
        }
      }
      assert tail[i - 1] == qs[i];
      FindUniqueTempId(tail, i - 1);
    }
  }

  /** Asks for confirmation before removing the entry with tempId `t`; the
      list itself never changes here, and an unknown tempId does nothing. */
  function RemoveQuestion(m: QuestionManager, t: string): (r: QuestionManager)
    ensures r.questions == m.questions
    ensures !HasTempId(m.questions, t) ==> r == m
    ensures HasTempId(m.questions, t) ==>
      && r.deleteDialog.open
      && r.deleteDialog.questionToDelete.Some?
      && r.deleteDialog.questionToDelete.value.tempId == t
      && r.deleteDialog.questionToDelete.value in m.questions
    ensures HasTempId(m.questions, t) ==> r.deleteDialog == DeleteDialog(true, FindByTempId(m.questions, t))
  {
    match FindByTempId(m.questions, t)
    case None => m
    case Some(q) => m.(deleteDialog := DeleteDialog(true, Some(q)))
  }

  /** The entries whose tempId is not `t`, in order. */
  function WithoutTempId(qs: seq<QuizQuestion>, t: string): (r: seq<QuizQuestion>)
    ensures forall x :: x in r <==> x in qs && x.tempId != t
    ensures !HasTempId(r, t)
    ensures |r| <= |qs|
    decreases |qs|
  {
    if |qs| == 0 then []
    else
      var rest := WithoutTempId(qs[1..], t);
      assert forall x :: x in qs <==> x == qs[0] || x in qs[1..] by {
        assert qs == [qs[0]] + qs[1..];
      }
      if qs[0].tempId == t then rest else [qs[0]] + rest
  }

  /** The filter keeps the order of the list it filters: it distributes
      over concatenation, so with repeated tempIds every copy goes and the
      survivors keep their relative order. */
  lemma {:induction false} WithoutTempIdAppend(a: seq<QuizQuestion>, b: seq<QuizQuestion>, t: string)
    ensures WithoutTempId(a + b, t) == WithoutTempId(a, t) + WithoutTempId(b, t)
    decreases |a|
  {
    if |a| == 0 {
      assert a + b == b;
    } else {
      assert (a + b)[0] == a[0];
      assert (a + b)[1..] == a[1..] + b;
      WithoutTempIdAppend(a[1..], b, t);
    }
  }

  /** On one entry the filter keeps it exactly when its tempId differs. */
  lemma WithoutTempIdSingle(x: QuizQuestion, t: string)
    ensures WithoutTempId([x], t) == if x.tempId == t then [] else [x]
  {
    assert [x][1..] == [];
  }

  /** Carries out a pending removal and closes the dialog; with nothing
      pending it does nothing. */
  function ConfirmRemoveQuestion(m: QuestionManager): (r: QuestionManager)
    ensures m.deleteDialog.questionToDelete.None? ==> r == m
    ensures m.deleteDialog.questionToDelete.Some? ==>
      var t := m.deleteDialog.questionToDelete.value.tempId;
      && r.deleteDialog == ClosedDialog
      && (forall x :: x in r.questions <==> x in m.questions && x.tempId != t)
      && !HasTempId(r.questions, t)
  {
    match m.deleteDialog.questionToDelete
    case None => m
    case Some(q) => QuestionManager(WithoutTempId(m.questions, q.tempId), ClosedDialog)
  }

  /** Confirming a removal filters every part of the list independently:
      however the list is split, the result is the two filtered parts in
      their original order. */
  lemma ConfirmRemoveKeepsOrder(m: QuestionManager, a: seq<QuizQuestion>, b: seq<QuizQuestion>)
    requires m.deleteDialog.questionToDelete.Some?
    requires m.questions == a + b
    ensures var t := m.deleteDialog.questionToDelete.value.tempId;
      ConfirmRemoveQuestion(m).questions == WithoutTempId(a, t) + WithoutTempId(b, t)
  {
    WithoutTempIdAppend(a, b, m.deleteDialog.questionToDelete.value.tempId);
  }

  /** The dialog's open/close callback: closing it (cancel) forgets the
      pending entry. */
  function OnDeleteDialogOpenChange(m: QuestionManager, open: bool): (r: QuestionManager)
    ensures r.questions == m.questions
    ensures r.deleteDialog.open == open
    ensures !open ==> ConfirmRemoveQuestion(r) == r
    ensures open ==> r.deleteDialog.questionToDelete == m.deleteDialog.questionToDelete
  {
    m.(deleteDialog := DeleteDialog(open, if open then m.deleteDialog.questionToDelete else None))
  }

  /** With unique tempIds, removal takes out exactly the one entry and
      keeps every other entry in its order. */
  lemma {:induction false} WithoutUniqueTempId(qs: seq<QuizQuestion>, i: nat)
    requires UniqueTempIds(qs) && i < |qs|
    ensures WithoutTempId(qs, qs[i].tempId) == qs[..i] + qs[i + 1..]
    decreases |qs|
  {
    var t := qs[i].tempId;
    if i == 0 {
      WithoutAbsentTempId(qs[1..], t);
    } else {
      assert qs[0].tempId != t;
      var tail := qs[1..];
      assert UniqueTempIds(tail) by {
        forall a, b | 0 <= a < b < |tail| ensures tail[a].tempId != tail[b].tempId {
          assert tail[a] == qs[a + 1] && tail[b] == qs[b + 1];
        }
      }
      assert tail[i - 1] == qs[i];
      WithoutUniqueTempId(tail, i - 1);
      assert qs[..i] == [qs[0]] + tail[..i - 1];
      assert qs[i + 1..] == tail[i..];
    }
  }

  /** Removing an absent tempId changes nothing. */
  lemma {:induction false} WithoutAbsentTempId(qs: seq<QuizQuestion>, t: string)
    requires forall k :: 0 <= k < |qs| ==> qs[k].tempId != t
    ensures WithoutTempId(qs, t) == qs
    decreases |qs|
  {
    if |qs| > 0 {
      WithoutAbsentTempId(qs[1..], t);
      assert qs == [qs[0]] + qs[1..];
    }
  }

  /** Requesting and confirming the removal of an entry takes out exactly
      that entry when tempIds are unique. */
  lemma RemoveThenConfirm(m: QuestionManager, i: nat)
    requires UniqueTempIds(m.questions) && i < |m.questions|
    ensures ConfirmRemoveQuestion(RemoveQuestion(m, m.questions[i].tempId))
         == QuestionManager(m.questions[..i] + m.questions[i + 1..], ClosedDialog)
  {
    var t := m.questions[i].tempId;
    assert HasTempId(m.questions, t);
    WithoutUniqueTempId(m.questions, i);
  }

  /** The count shown on the form follows the edits: one more after an
      add, one more after recycling a question not yet present and none
      otherwise, one fewer after a confirmed removal. */
  lemma TotalQuestionsCounts(m: QuestionManager, stamp: string, q: Question, i: nat)
    ensures TotalQuestions(AddNewQuestion(m, stamp)) == TotalQuestions(m) + 1
    ensures TotalQuestions(AddRecycledQuestion(m, q)) ==
      TotalQuestions(m) + if HasTempId(m.questions, RecycledTempId(q.id)) then 0 else 1
    ensures UniqueTempIds(m.questions) && i < |m.questions| ==>
      TotalQuestions(ConfirmRemoveQuestion(RemoveQuestion(m, m.questions[i].tempId))) == TotalQuestions(m) - 1
  {
    if UniqueTempIds(m.questions) && i < |m.questions| {
      RemoveThenConfirm(m, i);
    }
  }

  /** A blank entry added and then removed leaves the original list. */
  lemma AddNewThenRemove(m: QuestionManager, stamp: string)
    requires UniqueTempIds(m.questions)
    requires !HasTempId(m.questions, NewTempId(stamp))
    ensures ConfirmRemoveQuestion(RemoveQuestion(AddNewQuestion(m, stamp), NewTempId(stamp))).questions
         == m.questions
  {
    var a := AddNewQuestion(m, stamp);
    AddNewKeepsTempIdsUnique(m, stamp);
    RemoveThenConfirm(a, 0);
    assert a.questions[1..] == m.questions;
  }

  // ---------------------------------------------------------------------------
  // Collapse and reorder
  // ---------------------------------------------------------------------------

  /** Flips the collapsed flag of the entries with tempId `t`. */
  function ToggleCollapse(m: QuestionManager, t: string): (r: QuestionManager)
    ensures r.deleteDialog == m.deleteDialog
    ensures |r.questions| == |m.questions|
    ensures forall i :: 0 <= i < |m.questions| ==>
      var a, b := m.questions[i], r.questions[i];
      && b.id == a.id && b.text == a.text && b.answer == a.answer && b.tempId == a.tempId
      && (b.isCollapsed != a.isCollapsed <==> a.tempId == t)
  {
    var qs := m.questions;
    m.(questions := seq(|qs|, i requires 0 <= i < |qs| =>
      if qs[i].tempId == t then qs[i].(isCollapsed := !qs[i].isCollapsed) else qs[i]))
  }

  /** Toggling twice restores the working set. */
  lemma ToggleCollapseTwice(m: QuestionManager, t: string)
    ensures ToggleCollapse(ToggleCollapse(m, t), t) == m
  {
    var r := ToggleCollapse(ToggleCollapse(m, t), t);
    assert r.questions == m.questions;
  }

  /** Replaces the list by the given order as is; nothing checks that it is
      a permutation of the current entries. */
  function ReorderQuestions(m: QuestionManager, newOrder: seq<QuizQuestion>): (r: QuestionManager)
    ensures r.questions == newOrder
    ensures r.deleteDialog == m.deleteDialog
  {
    m.(questions := newOrder)
  }
}

=== FILE: quiz_schema.dfy ===
/** Field rules shared by the quiz schemas, in the form the schema library
    reports them: a set of issues, each with the path of the offending field
    and its message. A value is accepted when it has no issue. */
module FieldRules {

  /** One step of an issue path: an object field or an array index. */
  datatype Key = Field(name: string) | Index(i: nat)

  datatype Issue = Issue(path: seq<Key>, message: string)

  /** The rules of a quiz name: required, at least 3 and at most 100
      characters. The last message says "less than 100" but a name of
      exactly 100 characters passes. */
  function NameIssues(name: string): (r: set<Issue>)
    ensures r == {} <==> 3 <= |name| <= 100
    ensures forall iss :: iss in r ==> iss.path == [Field("name")]
  {
    var path := [Field("name")];
    (if |name| < 1 then {Issue(path, "Quiz name is required")} else {})
    + (if |name| < 3 then {Issue(path, "Quiz name must be at least 3 characters")} else {})
    + (if |name| > 100 then {Issue(path, "Quiz name must be less than 100 characters")} else {})
  }

  /** The text and answer of one question, whatever record carries them. */
  datatype TextPair = TextPair(text: string, answer: string)

  /** The text/answer pair of every question of a list, in order, read
      through the given projection. */
  function PairsOf<T>(qs: seq<T>, pair: T -> TextPair): (r: seq<TextPair>)
    ensures |r| == |qs|
    ensures forall i :: 0 <= i < |qs| ==> r[i] == pair(qs[i])
  {
    seq(|qs|, i requires 0 <= i < |qs| => pair(qs[i]))
  }

  /** The rules of one question at position `i` of array `list`: text of at
      least 5 characters, answer of at least 3. */
  function PairIssues(list: string, i: nat, p: TextPair): (r: set<Issue>)
    ensures r == {} <==> |p.text| >= 5 && |p.answer| >= 3
    ensures forall iss :: iss in r ==> |iss.path| == 3 && iss.path[0] == Field(list) && iss.path[1] == Index(i)
  {
    var textPath := [Field(list), Index(i), Field("text")];
    var answerPath := [Field(list), Index(i), Field("answer")];
    (if |p.text| < 1 then {Issue(textPath, "Question text is required")} else {})
    + (if |p.text| < 5 then {Issue(textPath, "Question must be at least 5 characters")} else {})
    + (if |p.answer| < 1 then {Issue(answerPath, "Answer is required")} else {})
    + (if |p.answer| < 3 then {Issue(answerPath, "Answer must be at least 3 characters")} else {})
  }

  /** The issues of the first `k` elements of array `list`. */
  function ArrayIssues(list: string, ps: seq<TextPair>, k: nat): (r: set<Issue>)
    requires k <= |ps|
    ensures r == {} <==> forall i :: 0 <= i < k ==> |ps[i].text| >= 5 && |ps[i].answer| >= 3
    ensures forall iss :: iss in r ==> |iss.path| == 3 && iss.path[0] == Field(list)
  {
    if k == 0 then {}
    else ArrayIssues(list, ps, k - 1) + PairIssues(list, k - 1, ps[k - 1])
  }
}

/** The schema of the quiz form (lib/schemas/quiz-schema.ts). */
module QuizSchema {
  import opened Types
  import opened FieldRules

  const QuestionsRequired := Issue([Field("questions")], "At least one question is required")

  /** All issues of the form values. `id`, `isCollapsed` and `tempId` carry
      no rule beyond their type. */
  function Parse(f: QuizFormData): (r: set<Issue>)
    ensures r == {} <==>
      && 3 <= |f.name| <= 100
      && |f.questions| > 0
      && forall i :: 0 <= i < |f.questions| ==> |f.questions[i].text| >= 5 && |f.questions[i].answer| >= 3
    ensures QuestionsRequired in r <==> |f.questions| == 0
  {
    NameIssues(f.name)
    + ArrayIssues("questions", PairsOf(f.questions, (q: QuizQuestion) => TextPair(q.text, q.answer)), |f.questions|)
    + (if |f.questions| == 0 then {QuestionsRequired} else {})
  }

  predicate Accepts(f: QuizFormData)
  {
    Parse(f) == {}
  }

  /** The name bounds are inclusive at both ends. */
  lemma NameBoundaries(f: QuizFormData)
    requires |f.questions| > 0
    requires forall i :: 0 <= i < |f.questions| ==> |f.questions[i].text| >= 5 && |f.questions[i].answer| >= 3
    ensures |f.name| == 100 ==> Accepts(f)
    ensures |f.name| == 3 ==> Accepts(f)
    ensures |f.name| == 101 || |f.name| == 2 ==> !Accepts(f)
  {
  }
}

/** The request schemas (lib/validations/quiz.ts): one for creating a quiz
    from new questions and ids of existing ones, one for editing a quiz. */
module QuizValidation {
  import opened FieldRules

  datatype NewQuestion = NewQuestion(text: string, answer: string)

  datatype ExistingQuestion = ExistingQuestion(id: string, text: string, answer: string, isModified: bool)

  datatype CreateQuizData = CreateQuizData(
    name: string,
    newQuestions: seq<NewQuestion>,
    existingQuestionIds: seq<string>)

  datatype EditQuizData = EditQuizData(
    name: string,
    existingQuestions: seq<ExistingQuestion>,
    newQuestions: seq<NewQuestion>,
    recycledQuestionIds: seq<string>)

  const CreateCountIssue := Issue([Field("newQuestions")], "At least one question is required (new or existing)")
  const EditCountIssue := Issue([Field("existingQuestions")], "At least one question is required")

  /** The count refinement of the create schema. */
  predicate CreateHasQuestions(d: CreateQuizData)
  {
    |d.newQuestions| > 0 || |d.existingQuestionIds| > 0
  }

  /** The count refinement of the edit schema. */
  predicate EditHasQuestions(d: EditQuizData)
  {
    |d.existingQuestions| > 0 || |d.newQuestions| > 0 || |d.recycledQuestionIds| > 0
  }

  function ParseCreate(d: CreateQuizData): (r: set<Issue>)
    ensures r == {} <==>
      && 3 <= |d.name| <= 100
      && (forall i :: 0 <= i < |d.newQuestions| ==> |d.newQuestions[i].text| >= 5 && |d.newQuestions[i].answer| >= 3)
      && (|d.newQuestions| > 0 || |d.existingQuestionIds| > 0)
    ensures CreateCountIssue in r <==> |d.newQuestions| == 0 && |d.existingQuestionIds| == 0
  {
    NameIssues(d.name)
    + ArrayIssues("newQuestions", PairsOf(d.newQuestions, (q: NewQuestion) => TextPair(q.text, q.answer)), |d.newQuestions|)
    + (if CreateHasQuestions(d) then {} else {CreateCountIssue})
  }

  /** The per-field rules of the edit schema: the name and both question
      arrays. Every issue sits under the name or under one array element. */
  function EditFieldIssues(d: EditQuizData): (r: set<Issue>)
    ensures r == {} <==>
      && 3 <= |d.name| <= 100
      && (forall i :: 0 <= i < |d.existingQuestions| ==>
            |d.existingQuestions[i].text| >= 5 && |d.existingQuestions[i].answer| >= 3)
      && (forall i :: 0 <= i < |d.newQuestions| ==> |d.newQuestions[i].text| >= 5 && |d.newQuestions[i].answer| >= 3)
    ensures forall iss :: iss in r ==> iss.path == [Field("name")] || |iss.path| == 3
  {
    NameIssues(d.name)
    + ArrayIssues("existingQuestions", PairsOf(d.existingQuestions, (q: ExistingQuestion) => TextPair(q.text, q.answer)), |d.existingQuestions|)
    + ArrayIssues("newQuestions", PairsOf(d.newQuestions, (q: NewQuestion) => TextPair(q.text, q.answer)), |d.newQuestions|)
  }

  function ParseEdit(d: EditQuizData): (r: set<Issue>)
    ensures r == {} <==>
      && 3 <= |d.name| <= 100
      && (forall i :: 0 <= i < |d.existingQuestions| ==>
            |d.existingQuestions[i].text| >= 5 && |d.existingQuestions[i].answer| >= 3)
      && (forall i :: 0 <= i < |d.newQuestions| ==> |d.newQuestions[i].text| >= 5 && |d.newQuestions[i].answer| >= 3)
      && (|d.existingQuestions| > 0 || |d.newQuestions| > 0 || |d.recycledQuestionIds| > 0)
    ensures EditCountIssue in r <==>
      |d.existingQuestions| == 0 && |d.newQuestions| == 0 && |d.recycledQuestionIds| == 0
  {
    var fields := EditFieldIssues(d);
    assert EditCountIssue !in fields by {
      assert EditCountIssue.path != [Field("name")] by {
        assert EditCountIssue.path[0].name[0] != 'n';
      }
    }
    fields + (if EditHasQuestions(d) then {} else {EditCountIssue})
  }

  /** Adding an element to any list never makes a passing count check fail. */
  lemma CountRefinementsMonotone(c: CreateQuizData, e: EditQuizData, q: NewQuestion, x: ExistingQuestion, id: string)
    ensures CreateHasQuestions(c) ==> CreateHasQuestions(c.(newQuestions := c.newQuestions + [q]))
    ensures CreateHasQuestions(c) ==> CreateHasQuestions(c.(existingQuestionIds := c.existingQuestionIds + [id]))
    ensures EditHasQuestions(e) ==> EditHasQuestions(e.(existingQuestions := e.existingQuestions + [x]))
    ensures EditHasQuestions(e) ==> EditHasQuestions(e.(newQuestions := e.newQuestions + [q]))
    ensures EditHasQuestions(e) ==> EditHasQuestions(e.(recycledQuestionIds := e.recycledQuestionIds + [id]))
  {
  }
}

=== FILE: quiz_submit.dfy ===
/** What the create and edit forms do on submit, shared by both hooks: the
    duplicate-name check and the mapping from working-set entries to the
    questions sent with the quiz. The clock is a parameter: `clock(i)` is the value `Date.now()` returns
    while entry `i` is mapped. */
module QuizSubmit {
  import opened Types
  import opened Strings
  import FieldRules

  const DuplicateNameMessage := "A quiz with this name already exists"

  /** What a submit leads to. */
  datatype Submission =
    | Invalid(issues: set<FieldRules.Issue>)   // the schema rejected the values; the handler does not run
    | NameError(field: string, message: string) // set on the form; no request
    | CreateRequest(name: string, questions: seq<Question>)
    | UpdateRequest(quizId: string, name: string, questions: seq<Question>)

  /** The id `q-<now>-<index>` given to the entry at position `index` that
      has none, `now` being the clock reading taken for that entry. */
  function GeneratedId(now: nat, index: nat): (r: string)
    ensures IsGeneratedId(r)
  {
    "q-" + NatToString(now) + "-" + NatToString(index)
  }

  /** A string of the generated form, for some clock reading and position. */
  ghost predicate IsGeneratedId(s: string)
  {
    exists now: nat, index: nat :: s == "q-" + NatToString(now) + "-" + NatToString(index)
  }

  /** `q.id || generated`: an empty id counts as missing, and only then is
      the clock read. The result is never empty. */
  function FinalId(id: Option<string>, now: nat, index: nat): (r: string)
    ensures r != ""
    ensures id.Some? && id.value != "" ==> r == id.value
    ensures id.None? || id.value == "" ==> IsGeneratedId(r)
  {
    if id.Some? && id.value != "" then id.value else GeneratedId(now, index)
  }

  /** The questions sent with the quiz: same length and order, text and
      answer copied, a present id kept and a missing one generated from the
      clock reading `clock(i)` taken while mapping entry `i`. */
  function FinalQuestions(qs: seq<QuizQuestion>, clock: nat -> nat): (r: seq<Question>)
    ensures |r| == |qs|
    ensures forall i :: 0 <= i < |qs| ==> r[i].text == qs[i].text && r[i].answer == qs[i].answer
    ensures forall i :: 0 <= i < |qs| && qs[i].id.Some? && qs[i].id.value != "" ==> r[i].id == qs[i].id.value
    ensures forall i :: 0 <= i < |qs| && (qs[i].id.None? || qs[i].id.value == "") ==> r[i].id == GeneratedId(clock(i), i)
  {
    var r := seq(|qs|, i requires 0 <= i < |qs| => Question(FinalId(qs[i].id, clock(i), i), qs[i].text, qs[i].answer));
    assert forall i :: 0 <= i < |qs| ==> r[i].id == FinalId(qs[i].id, clock(i), i);
    r
  }

  /** Ids generated at different positions differ, whatever the clock read
      for each: the position follows the first '-' after the digits of the
      reading. */
  lemma GeneratedIdsDistinct(a: nat, b: nat, i: nat, j: nat)
    requires i != j
    ensures GeneratedId(a, i) != GeneratedId(b, j)
  {
    var sa, sb := NatToString(a) + "-" + NatToString(i), NatToString(b) + "-" + NatToString(j);
    if "q-" + sa == "q-" + sb {
      PrefixCancel("q-", sa, sb);
      DashSplit(NatToString(a), NatToString(i), NatToString(b), NatToString(j));
      NatToStringInjective(i, j);
    }
    assert GeneratedId(a, i) == "q-" + sa && GeneratedId(b, j) == "q-" + sb;
  }

  /** The final ids are pairwise distinct when the kept ids are and none of
      them has the generated form `q-<digits>-<digits>`. */
  lemma FinalIdsDistinct(qs: seq<QuizQuestion>, clock: nat -> nat)
    requires forall i, j :: 0 <= i < j < |qs| && qs[i].id.Some? && qs[i].id.value != "" ==> qs[i].id != qs[j].id
    requires forall i :: 0 <= i < |qs| && qs[i].id.Some? ==> !IsGeneratedId(qs[i].id.value)
    ensures var r := FinalQuestions(qs, clock);
      forall i, j :: 0 <= i < j < |r| ==> r[i].id != r[j].id
  {
    var r := FinalQuestions(qs, clock);
    forall i, j | 0 <= i < j < |r| ensures r[i].id != r[j].id {
      var ki := qs[i].id.Some? && qs[i].id.value != "";
      var kj := qs[j].id.Some? && qs[j].id.value != "";
      if !ki && !kj {
        GeneratedIdsDistinct(clock(i), clock(j), i, j);
      } else if ki && !kj {
        assert IsGeneratedId(r[j].id);
      } else if !ki && kj {
        assert IsGeneratedId(r[i].id);
      }
    }
  }

  /** The create form's check: some loaded quiz has the same name, ignoring
      case. An unloaded list finds no duplicate. */
  predicate NameTakenOnCreate(existingQuizzes: Option<seq<Quiz>>, name: string)
  {
    existingQuizzes.Some? &&
    exists i :: 0 <= i < |existingQuizzes.value| && ToLower(existingQuizzes.value[i].name) == ToLower(name)
  }

  /** The edit form's check: as on create, but the quiz being edited does
      not count. */
  predicate NameTakenOnEdit(existingQuizzes: Option<seq<Quiz>>, name: string, quizId: string)
  {
    existingQuizzes.Some? &&
    exists i :: 0 <= i < |existingQuizzes.value| &&
      existingQuizzes.value[i].id != quizId && ToLower(existingQuizzes.value[i].name) == ToLower(name)
  }

  /** The edit check is the create check with the edited quiz left out:
      anything it refuses the create check refuses too, the two agree when
      no loaded quiz has the id, and an unloaded list refuses nothing. */
  lemma NameChecksAgree(existingQuizzes: Option<seq<Quiz>>, name: string, quizId: string)
    ensures NameTakenOnEdit(existingQuizzes, name, quizId) ==> NameTakenOnCreate(existingQuizzes, name)
    ensures existingQuizzes.Some? && (forall i :: 0 <= i < |existingQuizzes.value| ==> existingQuizzes.value[i].id != quizId) ==>
      (NameTakenOnEdit(existingQuizzes, name, quizId) <==> NameTakenOnCreate(existingQuizzes, name))
    ensures existingQuizzes.None? ==> !NameTakenOnCreate(existingQuizzes, name) && !NameTakenOnEdit(existingQuizzes, name, quizId)
  {
  }
}

/** The create form (hooks/facade/use-create-quiz-form.ts). */
module CreateQuizForm {
  import opened Types
  import opened Strings
  import opened QuizSubmit
  import QuizSchema

  /** The form's initial values: no name and no questions. */
  function InitialValues(): (f: QuizFormData)
    ensures !QuizSchema.Accepts(f)
    ensures QuizSchema.QuestionsRequired in QuizSchema.Parse(f)
  {
    QuizFormData("", [])
  }

  /** The submit handler, run on values the schema accepted: a taken name
      is reported on the name field and nothing is created; otherwise one
      create request carries the name and the final questions. */
  function OnSubmit(existingQuizzes: Option<seq<Quiz>>, data: QuizFormData, clock: nat -> nat): (r: Submission)
    ensures r.NameError? <==> NameTakenOnCreate(existingQuizzes, data.name)
    ensures r.NameError? ==> r == NameError("name", DuplicateNameMessage)
    ensures !r.NameError? ==>
      (r.CreateRequest? && r.name == data.name && r.questions == FinalQuestions(data.questions, clock))
  {
    if NameTakenOnCreate(existingQuizzes, data.name) then NameError("name", DuplicateNameMessage)
    else CreateRequest(data.name, FinalQuestions(data.questions, clock))
  }

  /** Submitting the form: the schema runs first, the handler only sees
      accepted values, and every accepted value reaches it. A create
      request therefore always carries a valid name, at least one question,
      and a name no loaded quiz has. */
  function HandleSubmit(existingQuizzes: Option<seq<Quiz>>, data: QuizFormData, clock: nat -> nat): (r: Submission)
    ensures r.Invalid? <==> !QuizSchema.Accepts(data)
    ensures |data.questions| == 0 ==> r.Invalid? && QuizSchema.QuestionsRequired in r.issues
    ensures r.CreateRequest? ==>
      && 3 <= |r.name| <= 100
      && |r.questions| == |data.questions| >= 1
      && (forall i :: 0 <= i < |r.questions| ==> |r.questions[i].text| >= 5 && |r.questions[i].answer| >= 3)
      && !NameTakenOnCreate(existingQuizzes, r.name)
    ensures QuizSchema.Accepts(data) ==> r == OnSubmit(existingQuizzes, data, clock)
  {
    if !QuizSchema.Accepts(data) then Invalid(QuizSchema.Parse(data))
    else OnSubmit(existingQuizzes, data, clock)
  }

  /** A name that matches a loaded quiz in any letter case is refused; with
      the quiz list not loaded no name is refused. */
  lemma DuplicateNames(existingQuizzes: seq<Quiz>, i: nat, data: QuizFormData, clock: nat -> nat)
    requires i < |existingQuizzes|
    ensures ToLower(existingQuizzes[i].name) == ToLower(data.name) ==>
      OnSubmit(Some(existingQuizzes), data, clock) == NameError("name", DuplicateNameMessage)
    ensures OnSubmit(None, data, clock).CreateRequest?
  {
  }
}

/** The edit form (hooks/facade/use-edit-quiz-form.ts). */
module EditQuizForm {
  import opened Types
  import opened Strings
  import opened QuizSubmit
  import QuizSchema
  import QuizQuestions

  function ExistingTempId(id: string): string
  {
    "existing-" + id
  }

  /** The form seeded from the quiz: its name, and one collapsed entry per
      question, in order, keyed by "existing-" and the question's id. */
  function InitialValues(quiz: Quiz): (f: QuizFormData)
    ensures f.name == quiz.name
    ensures |f.questions| == |quiz.questions|
    ensures forall i :: 0 <= i < |quiz.questions| ==>
      var q, e := quiz.questions[i], f.questions[i];
      e == QuizQuestion(Some(q.id), q.text, q.answer, true, ExistingTempId(q.id))
  {
    var qs := quiz.questions;
    QuizFormData(quiz.name, seq(|qs|, i requires 0 <= i < |qs| =>
      QuizQuestion(Some(qs[i].id), qs[i].text, qs[i].answer, true, ExistingTempId(qs[i].id))))
  }

  /** Submitting the seeded form unchanged sends back the quiz's own
      questions, provided every question has a non-empty id. */
  lemma SeedRoundTrip(quiz: Quiz, clock: nat -> nat)
    requires forall i :: 0 <= i < |quiz.questions| ==> quiz.questions[i].id != ""
    ensures FinalQuestions(InitialValues(quiz).questions, clock) == quiz.questions
  {
    var r := FinalQuestions(InitialValues(quiz).questions, clock);
    assert forall i :: 0 <= i < |r| ==> r[i] == quiz.questions[i];
  }

  /** The seeded entries have unique tempIds exactly when the quiz's
      question ids are unique, and none of the quiz's questions is offered
      for recycling. */
  lemma SeedTempIds(quiz: Quiz, all: seq<Question>)
    ensures UniqueTempIds(InitialValues(quiz).questions) <==>
      forall i, j :: 0 <= i < j < |quiz.questions| ==> quiz.questions[i].id != quiz.questions[j].id
    ensures forall q :: q in QuizQuestions.AvailableQuestions(all, InitialValues(quiz).questions) ==>
      q in all && forall i :: 0 <= i < |quiz.questions| ==> q.id != quiz.questions[i].id
  {
    var f := InitialValues(quiz);
    forall i, j | 0 <= i < j < |quiz.questions| && f.questions[i].tempId == f.questions[j].tempId
      ensures quiz.questions[i].id == quiz.questions[j].id
    {
      PrefixCancel("existing-", quiz.questions[i].id, quiz.questions[j].id);
    }
    forall q | q in QuizQuestions.AvailableQuestions(all, f.questions)
      ensures forall i :: 0 <= i < |quiz.questions| ==> q.id != quiz.questions[i].id
    {
      forall i | 0 <= i < |quiz.questions| ensures q.id != quiz.questions[i].id {
        assert f.questions[i].id == Some(quiz.questions[i].id);
      }
    }
  }

  /** The submit handler: a name taken by another quiz is reported on the
      name field and nothing is updated; otherwise one update request for
      this quiz carries the name and the final questions. */
  function OnSubmit(existingQuizzes: Option<seq<Quiz>>, quiz: Quiz, data: QuizFormData, clock: nat -> nat): (r: Submission)
    ensures r.NameError? <==> NameTakenOnEdit(existingQuizzes, data.name, quiz.id)
    ensures r.NameError? ==> r == NameError("name", DuplicateNameMessage)
    ensures !r.NameError? ==>
      (r.UpdateRequest? && r.quizId == quiz.id && r.name == data.name
       && r.questions == FinalQuestions(data.questions, clock))
  {
    if NameTakenOnEdit(existingQuizzes, data.name, quiz.id) then NameError("name", DuplicateNameMessage)
    else UpdateRequest(quiz.id, data.name, FinalQuestions(data.questions, clock))
  }

  /** Submitting the form: the schema runs first, and values it accepts
      always reach the handler. An update request therefore targets this
      quiz and carries a valid name and the final questions, each valid. */
  function HandleSubmit(existingQuizzes: Option<seq<Quiz>>, quiz: Quiz, data: QuizFormData, clock: nat -> nat): (r: Submission)
    ensures r.Invalid? <==> !QuizSchema.Accepts(data)
    ensures |data.questions| == 0 ==> r.Invalid? && QuizSchema.QuestionsRequired in r.issues
    ensures r.UpdateRequest? ==>
      && r.quizId == quiz.id
      && 3 <= |r.name| <= 100
      && |r.questions| == |data.questions| >= 1
      && (forall i :: 0 <= i < |r.questions| ==> |r.questions[i].text| >= 5 && |r.questions[i].answer| >= 3)
      && r.questions == FinalQuestions(data.questions, clock)
      && !NameTakenOnEdit(existingQuizzes, r.name, quiz.id)
    ensures QuizSchema.Accepts(data) ==> r == OnSubmit(existingQuizzes, quiz, data, clock)
  {
    if !QuizSchema.Accepts(data) then Invalid(QuizSchema.Parse(data))
    else OnSubmit(existingQuizzes, quiz, data, clock)
  }

  /** Keeping the quiz's own name, in any letter case, is accepted as long
      as no other quiz has it; another quiz's name in any case is refused. */
  lemma OwnNameAccepted(existingQuizzes: seq<Quiz>, quiz: Quiz, data: QuizFormData, clock: nat -> nat)
    requires ToLower(data.name) == ToLower(quiz.name)
    requires forall i :: 0 <= i < |existingQuizzes| && existingQuizzes[i].id != quiz.id ==>
      ToLower(existingQuizzes[i].name) != ToLower(quiz.name)
    ensures OnSubmit(Some(existingQuizzes), quiz, data, clock).UpdateRequest?
  {
  }

  lemma OtherNameRefused(existingQuizzes: seq<Quiz>, i: nat, quiz: Quiz, data: QuizFormData, clock: nat -> nat)
    requires i < |existingQuizzes| && existingQuizzes[i].id != quiz.id
    requires ToLower(existingQuizzes[i].name) == ToLower(data.name)
    ensures OnSubmit(Some(existingQuizzes), quiz, data, clock) == NameError("name", DuplicateNameMessage)
  {
  }
}

=== FILE: strings.dfy ===
/** String helpers the hooks rely on: case folding for the duplicate-name
    check and decimal rendering of numbers inside template strings. */
module Strings {

  /** `toLowerCase` on one character, restricted to ASCII letters. */
  function LowerChar(c: char): char
  {
    if 'A' <= c <= 'Z' then (c as int + 32) as char else c
  }

  /** `toLowerCase` on a string, restricted to ASCII letters. */
  function ToLower(s: string): (r: string)
    ensures |r| == |s|
    ensures forall i :: 0 <= i < |s| ==> r[i] == LowerChar(s[i])
  {
    seq(|s|, i requires 0 <= i < |s| => LowerChar(s[i]))
  }

  function DigitChar(d: nat): (c: char)
    requires d < 10
    ensures '0' <= c <= '9'
  {
    ('0' as int + d) as char
  }

  /** Decimal rendering of a natural number, as a template string prints it. */
  function NatToString(n: nat): (r: string)
    ensures |r| >= 1
    ensures forall i :: 0 <= i < |r| ==> '0' <= r[i] <= '9'
    ensures (n < 10) == (|r| == 1)
    decreases n
  {
    if n < 10 then [DigitChar(n)] else NatToString(n / 10) + [DigitChar(n % 10)]
  }

  /** Different numbers print differently. */
  lemma {:induction false} NatToStringInjective(a: nat, b: nat)
    requires NatToString(a) == NatToString(b)
    ensures a == b
    decreases a
  {
    var sa, sb := NatToString(a), NatToString(b);
    if a < 10 || b < 10 {
      assert |sa| == 1 && |sb| == 1;
      assert sa[0] == DigitChar(a) && sb[0] == DigitChar(b);
    } else {
      assert sa == NatToString(a / 10) + [DigitChar(a % 10)];
      assert sb == NatToString(b / 10) + [DigitChar(b % 10)];
      assert DigitChar(a % 10) == sa[|sa| - 1] == sb[|sb| - 1] == DigitChar(b % 10);
      assert NatToString(a / 10) == sa[..|sa| - 1] == sb[..|sb| - 1] == NatToString(b / 10);
      NatToStringInjective(a / 10, b / 10);
    }
  }

  /** A common prefix can be cancelled. */
  lemma PrefixCancel(p: string, a: string, b: string)
    requires p + a == p + b
    ensures a == b
  {
    assert a == (p + a)[|p|..];
    assert b == (p + b)[|p|..];
  }

  /** Every character is a decimal digit. */
  predicate AllDigits(s: string)
  {
    forall k :: 0 <= k < |s| ==> '0' <= s[k] <= '9'
  }

  /** In a digit string followed by '-', the first '-' is right after the
      digits. */
  lemma DashAfterDigits(a: string, i: string)
    requires AllDigits(a)
    ensures (a + "-" + i)[|a|] == '-'
    ensures forall k :: 0 <= k < |a| ==> (a + "-" + i)[k] != '-'
  {
    forall k | 0 <= k < |a| ensures (a + "-" + i)[k] != '-' {
      assert (a + "-" + i)[k] == a[k];
    }
  }

  /** Two digit strings joined by '-' split back uniquely: the separator
      sits at the first non-digit. */
  lemma DashSplit(a: string, i: string, b: string, j: string)
    requires AllDigits(a) && AllDigits(b)
    requires a + "-" + i == b + "-" + j
    ensures a == b && i == j
  {
    var s := a + "-" + i;
    DashAfterDigits(a, i);
    DashAfterDigits(b, j);
    assert |a| == |b|;
    assert a == s[..|a|] == (b + "-" + j)[..|b|] == b;
    assert i == s[|a| + 1..] == (b + "-" + j)[|b| + 1..] == j;
  }

  /** A string that starts with `p`. */
  predicate HasPrefix(s: string, p: string)
  {
    |p| <= |s| && s[..|p|] == p
  }
}

=== FILE: table_pagination.dfy ===
/** The pagination bar under a table (components/common/table-pagination.tsx):
    the "Showing a to b of n" caption, a Previous control, the page links
    with gap markers, and a Next control. */
module TablePagination {
  import opened Types
  import opened Utils

  /** One rendered control. `target` is the page its click requests. */
  datatype Control =
    | Previous(target: int, disabled: bool)
    | Link(page: int, active: bool)
    | Gap
    | Next(target: int, disabled: bool)

  /** What the component renders. */
  datatype View = View(startItem: int, endItem: int, totalItems: int, controls: seq<Control>)

  function PreviousTarget(currentPage: int): int
  {
    if currentPage - 1 < 1 then 1 else currentPage - 1
  }

  function NextTarget(currentPage: int, totalPages: int): int
  {
    if currentPage + 1 < totalPages then currentPage + 1 else totalPages
  }

  function ToControl(item: PageItem, currentPage: int): Control
  {
    match item
    case Ellipsis => Gap
    case Page(n) => Link(n, currentPage == n)
  }

  /** The component: nothing for at most one page, otherwise the caption
      and the controls. */
  function TablePagination(currentPage: int, totalPages: int, totalItems: int, itemsPerPage: int): (r: Option<View>)
    ensures r.None? <==> totalPages <= 1
    ensures r.Some? ==>
      var cs := r.value.controls;
      var pages := PaginationPages(currentPage, totalPages);
      && |cs| == |pages| + 2
      && cs[0] == Previous(PreviousTarget(currentPage), currentPage == 1)
      && cs[|cs| - 1] == Next(NextTarget(currentPage, totalPages), currentPage == totalPages)
      && (forall i :: 0 <= i < |pages| ==> cs[i + 1] == ToControl(pages[i], currentPage))
    ensures r.Some? ==>
      && ItemRange(r.value.startItem, r.value.endItem) == PaginationRange(currentPage, itemsPerPage, totalItems)
      && r.value.totalItems == totalItems
  {
    if totalPages <= 1 then None
    else
      var pages := PaginationPages(currentPage, totalPages);
      var range := PaginationRange(currentPage, itemsPerPage, totalItems);
      var links := seq(|pages|, i requires 0 <= i < |pages| => ToControl(pages[i], currentPage));
      Some(View(range.startItem, range.endItem, totalItems,
        [Previous(PreviousTarget(currentPage), currentPage == 1)]
        + links
        + [Next(NextTarget(currentPage, totalPages), currentPage == totalPages)]))
  }

  /** Previous and Next request a clamped neighbouring page: never below 1
      and never above the last page. Each is disabled exactly when its
      request would not move, i.e. at the first and at the last page. */
  lemma NavigationTargets(currentPage: int, totalPages: int)
    requires 2 <= totalPages && 1 <= currentPage <= totalPages
    ensures PreviousTarget(currentPage) == ClampPage(currentPage - 1, totalPages)
    ensures NextTarget(currentPage, totalPages) == ClampPage(currentPage + 1, totalPages)
    ensures 1 <= PreviousTarget(currentPage) <= totalPages
    ensures 1 <= NextTarget(currentPage, totalPages) <= totalPages
    ensures currentPage == 1 <==> PreviousTarget(currentPage) == currentPage
    ensures currentPage == totalPages <==> NextTarget(currentPage, totalPages) == currentPage
  {
  }

  /** For a valid current page exactly one link is active, and it links to
      the current page. */
  lemma ExactlyOneActiveLink(currentPage: int, totalPages: int, totalItems: int, itemsPerPage: int)
    requires 2 <= totalPages && 1 <= currentPage <= totalPages
    ensures var cs := TablePagination(currentPage, totalPages, totalItems, itemsPerPage).value.controls;
      && (exists i :: 0 <= i < |cs| && cs[i] == Link(currentPage, true))
      && (forall i :: 0 <= i < |cs| && IsActive(cs[i]) ==> cs[i].page == currentPage)
      && (forall i, j :: 0 <= i < |cs| && 0 <= j < |cs| && IsActive(cs[i]) && IsActive(cs[j]) ==> i == j)
  {
    var cs := TablePagination(currentPage, totalPages, totalItems, itemsPerPage).value.controls;
    CurrentPageListedOnce(currentPage, totalPages);
    ActiveLinks(cs, PaginationPages(currentPage, totalPages), currentPage);
  }

  /** Controls framing the links of `pages` have one active link for each
      listing of the current page. */
  lemma ActiveLinks(cs: seq<Control>, pages: seq<PageItem>, currentPage: int)
    requires |cs| == |pages| + 2 && cs[0].Previous? && cs[|cs| - 1].Next?
    requires forall i :: 0 <= i < |pages| ==> cs[i + 1] == ToControl(pages[i], currentPage)
    requires exists i :: 0 <= i < |pages| && pages[i] == Page(currentPage)
    requires forall i, j :: 0 <= i < |pages| && 0 <= j < |pages| && pages[i] == Page(currentPage) && pages[j] == Page(currentPage) ==> i == j
    ensures exists i :: 0 <= i < |cs| && cs[i] == Link(currentPage, true)
    ensures forall i :: 0 <= i < |cs| && IsActive(cs[i]) ==> cs[i].page == currentPage
    ensures forall i, j :: 0 <= i < |cs| && 0 <= j < |cs| && IsActive(cs[i]) && IsActive(cs[j]) ==> i == j
  {
    var k :| 0 <= k < |pages| && pages[k] == Page(currentPage);
    assert cs[k + 1] == Link(currentPage, true);
    forall i | 0 <= i < |cs| && IsActive(cs[i])
      ensures 1 <= i <= |pages| && pages[i - 1] == Page(currentPage)
    {
      assert cs[i] == ToControl(pages[i - 1], currentPage);
    }
  }

  predicate IsActive(c: Control)
  {
    c.Link? && c.active
  }

  /** The caption never counts past the last item nor more than a page. */
  lemma CaptionBounds(currentPage: int, totalPages: int, totalItems: int, itemsPerPage: int)
    requires 2 <= totalPages && currentPage >= 1 && itemsPerPage > 0
    ensures var v := TablePagination(currentPage, totalPages, totalItems, itemsPerPage).value;
      && v.totalItems == totalItems
      && v.endItem <= totalItems
      && v.endItem - v.startItem + 1 <= itemsPerPage
  {
    PaginationRangeCoversPage(currentPage, itemsPerPage, totalItems);
  }
}

=== FILE: types.dfy ===
/** The records the quiz front end passes around: persisted questions and
    quizzes, the editable working-set entry of the quiz form, and the form
    values themselves. */
module Types {

  /** An optional value; `None` stands for JavaScript's `undefined`/`null`. */
  datatype Option<+T> = None | Some(value: T)

  /** A persisted question. */
  datatype Question = Question(id: string, text: string, answer: string)

  /** A quiz as the hooks read it: its questions are embedded, in order. */
  datatype Quiz = Quiz(id: string, name: string, questions: seq<Question>)

  /** One entry of the quiz form's working set. `id` is present for entries
      that correspond to a persisted question; `tempId` identifies the entry
      inside one editing session. */
  datatype QuizQuestion = QuizQuestion(
    id: Option<string>,
    text: string,
    answer: string,
    isCollapsed: bool,
    tempId: string)

  /** The values held by the quiz form. */
  datatype QuizFormData = QuizFormData(name: string, questions: seq<QuizQuestion>)

  /** No two entries of the working set share a tempId. */
  predicate UniqueTempIds(qs: seq<QuizQuestion>)
  {
    forall i, j :: 0 <= i < j < |qs| ==> qs[i].tempId != qs[j].tempId
  }

  /** Some entry of the working set carries tempId `t`. */
  predicate HasTempId(qs: seq<QuizQuestion>, t: string)
  {
    exists i :: 0 <= i < |qs| && qs[i].tempId == t
  }

  /** Some entry of the working set refers to the persisted question `id`. */
  predicate HasId(qs: seq<QuizQuestion>, id: string)
  {
    exists i :: 0 <= i < |qs| && qs[i].id == Some(id)
  }
}

=== FILE: utils.dfy ===
/** Pure helpers of the front end: text previews and pagination arithmetic
    (lib/utils.ts). Numbers are JavaScript numbers used as integers. */
module Utils {
  import opened Types
  import opened Strings

  // ---------------------------------------------------------------------------
  // Text previews
  // ---------------------------------------------------------------------------

  const DefaultMaxLength := 60
  const PreviewLength := 50
  const Ellipsis3 := "..."
  const EmptyQuestionText := "Empty question"

  /** `text` unchanged when it fits in `maxLength` characters, otherwise its
      first `maxLength` characters followed by "...". JavaScript's
      `substring(0, k)` treats a negative `k` as 0. */
  function TruncateText(text: string, maxLength: int := DefaultMaxLength): (r: string)
    ensures |text| <= maxLength ==> r == text
    ensures |text| > maxLength ==>
      && |r| == (if maxLength < 0 then 0 else maxLength) + 3
      && HasPrefix(r, text[..|r| - 3])
      && r[|r| - 3..] == Ellipsis3
  {
    if |text| <= maxLength then text
    else text[..if maxLength < 0 then 0 else maxLength] + Ellipsis3
  }

  /** The preview of a working-set entry shown in the delete dialog: nothing
      for no entry, a placeholder for an empty text, and at most 50
      characters of the text followed by "..." otherwise. */
  function QuestionPreview(question: Option<QuizQuestion>): (r: string)
    ensures question.None? ==> r == ""
    ensures question.Some? && question.value.text == "" ==> r == EmptyQuestionText
    ensures question.Some? && |question.value.text| > PreviewLength ==>
      r == question.value.text[..PreviewLength] + Ellipsis3
    ensures question.Some? && 0 < |question.value.text| <= PreviewLength ==>
      r == question.value.text
    ensures |r| <= PreviewLength + 3
  {
    match question
    case None => ""
    case Some(q) =>
      var text := if q.text == "" then EmptyQuestionText else q.text;
      if |text| > PreviewLength then text[..PreviewLength] + Ellipsis3 else text
  }

  /** The preview is `TruncateText` at 50 characters of the text, or of the
      placeholder when the text is empty. */
  lemma PreviewIsTruncation(q: QuizQuestion)
    ensures QuestionPreview(Some(q))
         == TruncateText(if q.text == "" then EmptyQuestionText else q.text, PreviewLength)
  {
  }

  // ---------------------------------------------------------------------------
  // Page list with ellipses
  // ---------------------------------------------------------------------------

  /** One element of the page list: a page number or a gap marker. */
  datatype PageItem = Page(n: int) | Ellipsis

  /** The page list of the pagination control, exactly as computed: the
      first page, the pages around the current one, the last page, and an
      ellipsis where pages are skipped. */
  function PaginationPages(currentPage: int, totalPages: int): (r: seq<PageItem>)
    ensures totalPages <= 0 ==> r == []
    ensures totalPages == 1 ==> r == [Page(1)]
    ensures |r| <= 7
  {
    if totalPages <= 1 then
      (if totalPages == 1 then [Page(1)] else [])
    else
      [Page(1)]
      + When(currentPage > 3, Ellipsis)
      + When(currentPage > 2, Page(currentPage - 1))
      + When(currentPage != 1 && currentPage != totalPages, Page(currentPage))
      + When(currentPage < totalPages - 1, Page(currentPage + 1))
      + When(currentPage < totalPages - 2, Ellipsis)
      // the source guards the last page with `totalPages > 1`, which always holds here
      + [Page(totalPages)]
  }

  /** `x` when the condition holds, nothing otherwise: one `push` of the code. */
  function When<T>(c: bool, x: T): seq<T>
  {
    if c then [x] else []
  }

  /** Reference definition: page `k` is listed when it is the first page, the
      last page, or adjacent to the current page. */
  predicate Shown(k: int, currentPage: int, totalPages: int)
  {
    1 <= k <= totalPages && (k == 1 || k == totalPages || currentPage - 1 <= k <= currentPage + 1)
  }

  /** The consecutive integers lo, lo+1, ..., hi-1. */
  function Range(lo: int, hi: int): (r: seq<int>)
    ensures |r| == if lo < hi then hi - lo else 0
    ensures forall i :: 0 <= i < |r| ==> r[i] == lo + i
    decreases hi - lo
  {
    if lo >= hi then [] else [lo] + Range(lo + 1, hi)
  }

  /** The shown pages in increasing order: 1, the window around the current
      page clipped to the inner pages, and the last page. */
  function Window(currentPage: int, totalPages: int): seq<int>
  {
    var lo := if currentPage - 1 < 2 then 2 else currentPage - 1;
    var hi := if currentPage + 1 > totalPages - 1 then totalPages - 1 else currentPage + 1;
    [1] + Range(lo, hi + 1) + [totalPages]
  }

  predicate Increasing(xs: seq<int>)
  {
    forall i, j :: 0 <= i < j < |xs| ==> xs[i] < xs[j]
  }

  /** Renders an increasing list of page numbers, putting an ellipsis between
      two neighbours that skip at least one page. */
  function WithEllipses(xs: seq<int>): (r: seq<PageItem>)
    decreases |xs|
  {
    if |xs| == 0 then []
    else if |xs| == 1 then [Page(xs[0])]
    else [Page(xs[0])] + Gap(xs[0], xs[1]) + WithEllipses(xs[1..])
  }

  /** The marker between two neighbouring page numbers. */
  function Gap(a: int, b: int): seq<PageItem>
  {
    if b - a >= 2 then [Ellipsis] else []
  }

  /** Page numbers without any gap marker. */
  function PagesOf(xs: seq<int>): (r: seq<PageItem>)
    ensures |r| == |xs|
    ensures forall i :: 0 <= i < |xs| ==> r[i] == Page(xs[i])
  {
    seq(|xs|, i requires 0 <= i < |xs| => Page(xs[i]))
  }

  /** Rendering splits at any point of the list, with the gap marker between
      the two halves decided by their meeting numbers. */
  lemma {:induction false} WithEllipsesAppend(xs: seq<int>, ys: seq<int>)
    requires |xs| > 0 && |ys| > 0
    ensures WithEllipses(xs + ys) == WithEllipses(xs) + Gap(xs[|xs| - 1], ys[0]) + WithEllipses(ys)
    decreases |xs|
  {
    if |xs| == 1 {
      assert (xs + ys)[1..] == ys;
    } else {
      assert (xs + ys)[1..] == xs[1..] + ys;
      WithEllipsesAppend(xs[1..], ys);
    }
  }

  /** A run of consecutive pages renders without any ellipsis. */
  lemma {:induction false} WithEllipsesRange(lo: int, hi: int)
    requires lo < hi
    ensures WithEllipses(Range(lo, hi)) == PagesOf(Range(lo, hi))
    decreases hi - lo
  {
    var r := Range(lo, hi);
    if lo + 1 < hi {
      assert r[1..] == Range(lo + 1, hi);
      WithEllipsesStep(r);
      assert r[0] == lo && r[1] == lo + 1 && Gap(lo, lo + 1) == [];
      WithEllipsesRange(lo + 1, hi);
      assert PagesOf(r) == [Page(lo)] + PagesOf(r[1..]);
    }
  }

  lemma RangeMembers(lo: int, hi: int)
    ensures forall k :: k in Range(lo, hi) <==> lo <= k < hi
  {
    var r := Range(lo, hi);
    forall k | lo <= k < hi ensures k in r {
      assert r[k - lo] == k;
    }
  }

  /** The window lists exactly the shown pages, in increasing order. */
  lemma WindowShown(currentPage: int, totalPages: int)
    requires 2 <= totalPages && 1 <= currentPage <= totalPages
    ensures Increasing(Window(currentPage, totalPages))
    ensures forall k :: k in Window(currentPage, totalPages) <==> Shown(k, currentPage, totalPages)
  {
    var cp, tp := currentPage, totalPages;
    var lo := if cp - 1 < 2 then 2 else cp - 1;
    var hi := if cp + 1 > tp - 1 then tp - 1 else cp + 1;
    var mid := Range(lo, hi + 1);
    var w := Window(cp, tp);
    assert w == [1] + mid + [tp];
    RangeMembers(lo, hi + 1);
    forall k ensures k in w <==> k == 1 || k in mid || k == tp {
    }
    forall i, j | 0 <= i < j < |w| ensures w[i] < w[j] {
      if i == 0 {
        assert w[j] in mid || w[j] == tp;
      } else if j == |w| - 1 {
        assert w[i] in mid;
      }
    }
  }

  /** The code's three middle entries are the pages of the clipped window. */
  lemma MiddlePages(currentPage: int, totalPages: int)
    requires 3 <= totalPages && 1 <= currentPage <= totalPages
    ensures var lo := if currentPage - 1 < 2 then 2 else currentPage - 1;
      var hi := if currentPage + 1 > totalPages - 1 then totalPages - 1 else currentPage + 1;
      && lo <= hi
      && Range(lo, hi + 1)
         == When(currentPage > 2, currentPage - 1)
            + When(currentPage != 1 && currentPage != totalPages, currentPage)
            + When(currentPage < totalPages - 1, currentPage + 1)
  {
  }

  /** The rendering of a window with a non-empty middle run. */
  lemma WindowRendering(lo: int, hi: int, totalPages: int)
    requires 2 <= lo <= hi < totalPages
    ensures WithEllipses([1] + Range(lo, hi + 1) + [totalPages])
         == [Page(1)] + Gap(1, lo) + PagesOf(Range(lo, hi + 1)) + Gap(hi, totalPages) + [Page(totalPages)]
  {
    var mid := Range(lo, hi + 1);
    var tail := mid + [totalPages];
    assert [1] + mid + [totalPages] == [1] + tail;
    assert tail[0] == lo;
    assert mid[|mid| - 1] == hi;
    WithEllipsesAppend([1], tail);
    WithEllipsesAppend(mid, [totalPages]);
    WithEllipsesRange(lo, hi + 1);
    var pm, g1, g2 := PagesOf(mid), Gap(1, lo), Gap(hi, totalPages);
    calc {
      WithEllipses([1] + tail);
      WithEllipses([1]) + g1 + WithEllipses(tail);
      [Page(1)] + g1 + (pm + g2 + [Page(totalPages)]);
      { SeqAssoc5([Page(1)], g1, pm, g2, [Page(totalPages)]); }
      [Page(1)] + g1 + pm + g2 + [Page(totalPages)];
    }
  }

  lemma SeqAssoc5<T>(a: seq<T>, b: seq<T>, c: seq<T>, d: seq<T>, e: seq<T>)
    ensures a + b + (c + d + e) == a + b + c + d + e
  {
  }

  /** The code's result, grouped as first page, gap, middle pages, gap, last page. */
  lemma CodeAsPieces(currentPage: int, totalPages: int)
    requires 2 <= totalPages
    ensures PaginationPages(currentPage, totalPages)
         == [Page(1)] + When(currentPage > 3, Ellipsis)
            + PagesOf(When(currentPage > 2, currentPage - 1)
                      + When(currentPage != 1 && currentPage != totalPages, currentPage)
                      + When(currentPage < totalPages - 1, currentPage + 1))
            + When(currentPage < totalPages - 2, Ellipsis) + [Page(totalPages)]
  {
    var cp, tp := currentPage, totalPages;
    var p1, p2, p3 := When(cp > 2, cp - 1), When(cp != 1 && cp != tp, cp), When(cp < tp - 1, cp + 1);
    var q1, q2, q3 := When(cp > 2, Page(cp - 1)), When(cp != 1 && cp != tp, Page(cp)), When(cp < tp - 1, Page(cp + 1));
    assert PagesOf(p1) == q1 && PagesOf(p2) == q2 && PagesOf(p3) == q3;
    PagesOfAppend(p1 + p2, p3);
    PagesOfAppend(p1, p2);
    var e1, e2 := When(cp > 3, Ellipsis), When(cp < tp - 2, Ellipsis);
    SeqRegroup([Page(1)], e1, q1, q2, q3, e2, [Page(tp)]);
  }

  lemma SeqRegroup<T>(a: seq<T>, b: seq<T>, c: seq<T>, d: seq<T>, e: seq<T>, f: seq<T>, g: seq<T>)
    ensures a + b + c + d + e + f + g == a + b + (c + d + e) + f + g
  {
  }

  lemma PagesOfAppend(a: seq<int>, b: seq<int>)
    ensures PagesOf(a + b) == PagesOf(a) + PagesOf(b)
  {
  }

  /** The page list is the rendering of the window: the code's five
      conditionals agree with the reference definition. */
  lemma PaginationPagesIsWindow(currentPage: int, totalPages: int)
    requires 2 <= totalPages && 1 <= currentPage <= totalPages
    ensures PaginationPages(currentPage, totalPages) == WithEllipses(Window(currentPage, totalPages))
  {
    var cp, tp := currentPage, totalPages;
    var lo := if cp - 1 < 2 then 2 else cp - 1;
    var hi := if cp + 1 > tp - 1 then tp - 1 else cp + 1;
    if tp == 2 {
      assert Range(lo, hi + 1) == [];
      assert Window(cp, tp) == [1, 2];
      assert WithEllipses([1, 2]) == [Page(1)] + Gap(1, 2) + WithEllipses([2]);
    } else {
      assert Window(cp, tp) == [1] + Range(lo, hi + 1) + [tp];
      assert Gap(1, lo) == When(cp > 3, Ellipsis);
      assert Gap(hi, tp) == When(cp < tp - 2, Ellipsis);
      MiddlePages(cp, tp);
      WindowRendering(lo, hi, tp);
      CodeAsPieces(cp, tp);
    }
  }

  /** One step of the rendering. */
  lemma WithEllipsesStep(xs: seq<int>)
    requires |xs| >= 2
    ensures WithEllipses(xs) == [Page(xs[0])] + Gap(xs[0], xs[1]) + WithEllipses(xs[1..])
  {
  }

  lemma ConcatIndex<T>(a: seq<T>, b: seq<T>)
    ensures forall i :: 0 <= i < |a| ==> (a + b)[i] == a[i]
    ensures forall i :: |a| <= i < |a| + |b| ==> (a + b)[i] == b[i - |a|]
  {
  }

  /** Exactly the listed numbers appear as pages. */
  lemma {:induction false} WithEllipsesMembers(xs: seq<int>)
    ensures forall k :: Page(k) in WithEllipses(xs) <==> k in xs
    decreases |xs|
  {
    if |xs| >= 2 {
      WithEllipsesMembers(xs[1..]);
      assert WithEllipses(xs) == [Page(xs[0])] + Gap(xs[0], xs[1]) + WithEllipses(xs[1..]);
      forall k ensures k in xs <==> k == xs[0] || k in xs[1..] {
        assert xs == [xs[0]] + xs[1..];
      }
    }
  }

  /** The pages of a rendering of an increasing list are increasing. */
  lemma {:induction false} WithEllipsesIncreasing(xs: seq<int>)
    requires Increasing(xs)
    ensures var r := WithEllipses(xs);
      forall i, j :: 0 <= i < j < |r| && r[i].Page? && r[j].Page? ==> r[i].n < r[j].n
    decreases |xs|
  {
    var r := WithEllipses(xs);
    if |xs| >= 2 {
      var rest := WithEllipses(xs[1..]);
      var off := 1 + |Gap(xs[0], xs[1])|;
      var head := [Page(xs[0])] + Gap(xs[0], xs[1]);
      WithEllipsesStep(xs);
      ConcatIndex(head, rest);
      assert |head| == off;
      WithEllipsesIncreasing(xs[1..]);
      assert rest[0] == Page(xs[1]);
      forall i, j | 0 <= i < j < |r| && r[i].Page? && r[j].Page? ensures r[i].n < r[j].n {
        if i == 0 {
          assert r[j] == rest[j - off];
        } else {
          assert r[i] == rest[i - off] && r[j] == rest[j - off];
        }
      }
    }
  }

  /** Every ellipsis stands between two pages at least two apart. */
  lemma {:induction false} WithEllipsesGaps(xs: seq<int>)
    requires Increasing(xs)
    ensures var r := WithEllipses(xs);
      forall i :: 0 <= i < |r| && r[i].Ellipsis? ==>
        0 < i < |r| - 1 && r[i - 1].Page? && r[i + 1].Page? && r[i + 1].n - r[i - 1].n >= 2
    decreases |xs|
  {
    var r := WithEllipses(xs);
    if |xs| >= 2 {
      var rest := WithEllipses(xs[1..]);
      var head := [Page(xs[0])] + Gap(xs[0], xs[1]);
      var off := |head|;
      WithEllipsesStep(xs);
      ConcatIndex(head, rest);
      WithEllipsesGaps(xs[1..]);
      assert rest[0] == Page(xs[1]);
      forall i | 0 <= i < |r| && r[i].Ellipsis?
        ensures 0 < i < |r| - 1 && r[i - 1].Page? && r[i + 1].Page? && r[i + 1].n - r[i - 1].n >= 2
      {
        if i >= off {
          assert r[i] == rest[i - off];
          if i - 1 >= off { assert r[i - 1] == rest[i - 1 - off]; }
          assert r[i + 1] == rest[i + 1 - off];
        } else {
          assert i == 1 && off == 2;
          assert r[2] == rest[0];
        }
      }
    }
  }

  /** Two neighbouring pages are consecutive numbers. */
  lemma {:induction false} WithEllipsesSteps(xs: seq<int>)
    requires Increasing(xs)
    ensures var r := WithEllipses(xs);
      forall i :: 0 <= i < |r| - 1 && r[i].Page? && r[i + 1].Page? ==> r[i + 1].n == r[i].n + 1
    decreases |xs|
  {
    var r := WithEllipses(xs);
    if |xs| >= 2 {
      var rest := WithEllipses(xs[1..]);
      var head := [Page(xs[0])] + Gap(xs[0], xs[1]);
      var off := |head|;
      WithEllipsesStep(xs);
      ConcatIndex(head, rest);
      WithEllipsesSteps(xs[1..]);
      assert rest[0] == Page(xs[1]);
      forall i | 0 <= i < |r| - 1 && r[i].Page? && r[i + 1].Page?
        ensures r[i + 1].n == r[i].n + 1
      {
        if i >= off {
          assert r[i] == rest[i - off] && r[i + 1] == rest[i + 1 - off];
        } else {
          assert i == 0 && off == 1;
          assert r[1] == rest[0];
        }
      }
    }
  }

  /** Everything the pagination control relies on about the page list, for
      a valid current page and at least two pages: it starts at page 1 and
      ends at the last page, lists exactly the shown pages in strictly
      increasing order, puts an ellipsis exactly where pages are skipped,
      and lists the current page exactly once. */
  lemma PaginationPagesShape(currentPage: int, totalPages: int)
    requires 2 <= totalPages && 1 <= currentPage <= totalPages
    ensures var r := PaginationPages(currentPage, totalPages);
      && |r| >= 2 && r[0] == Page(1) && r[|r| - 1] == Page(totalPages)
      && (forall k :: Page(k) in r <==> Shown(k, currentPage, totalPages))
      && (forall i, j :: 0 <= i < j < |r| && r[i].Page? && r[j].Page? ==> r[i].n < r[j].n)
      && (forall i :: 0 <= i < |r| && r[i].Ellipsis? ==>
            0 < i < |r| - 1 && r[i - 1].Page? && r[i + 1].Page? && r[i + 1].n - r[i - 1].n >= 2)
      && (forall i :: 0 <= i < |r| - 1 && r[i].Page? && r[i + 1].Page? ==> r[i + 1].n == r[i].n + 1)
  {
    var r := PaginationPages(currentPage, totalPages);
    var w := Window(currentPage, totalPages);
    PaginationPagesIsWindow(currentPage, totalPages);
    assert r == WithEllipses(w);
    WindowShown(currentPage, totalPages);
    WithEllipsesMembers(w);
    WithEllipsesIncreasing(w);
    WithEllipsesGaps(w);
    WithEllipsesSteps(w);
    assert w[0] == 1 && w[|w| - 1] == totalPages;
  }

  /** The current page is listed, and only once: the page link the control
      marks as active is unique. */
  lemma CurrentPageListedOnce(currentPage: int, totalPages: int)
    requires 2 <= totalPages && 1 <= currentPage <= totalPages
    ensures var r := PaginationPages(currentPage, totalPages);
      && (exists i :: 0 <= i < |r| && r[i] == Page(currentPage))
      && (forall i, j :: 0 <= i < |r| && 0 <= j < |r| && r[i] == Page(currentPage) && r[j] == Page(currentPage) ==> i == j)
  {
    var r := PaginationPages(currentPage, totalPages);
    PaginationPagesShape(currentPage, totalPages);
    assert Shown(currentPage, currentPage, totalPages);
    assert Page(currentPage) in r;
  }

  /** Number of ellipses in a page list. */
  function EllipsisCount(r: seq<PageItem>): (c: nat)
    ensures c <= |r|
  {
    if |r| == 0 then 0 else (if r[0].Ellipsis? then 1 else 0) + EllipsisCount(r[1..])
  }

  lemma {:induction false} EllipsisCountAppend(a: seq<PageItem>, b: seq<PageItem>)
    ensures EllipsisCount(a + b) == EllipsisCount(a) + EllipsisCount(b)
    decreases |a|
  {
    if |a| > 0 {
      assert (a + b)[0] == a[0];
      assert (a + b)[1..] == a[1..] + b;
      EllipsisCountAppend(a[1..], b);
    } else {
      assert a + b == b;
    }
  }

  lemma {:induction false} PagesOfHasNoEllipsis(xs: seq<int>)
    ensures EllipsisCount(PagesOf(xs)) == 0
    decreases |xs|
  {
    if |xs| > 0 {
      assert PagesOf(xs) == PagesOf(xs[..1]) + PagesOf(xs[1..]) by {
        assert xs == xs[..1] + xs[1..];
        PagesOfAppend(xs[..1], xs[1..]);
      }
      EllipsisCountAppend(PagesOf(xs[..1]), PagesOf(xs[1..]));
      PagesOfHasNoEllipsis(xs[1..]);
    }
  }

  lemma WhenCount(c: bool, x: PageItem)
    ensures EllipsisCount(When(c, x)) == if c && x.Ellipsis? then 1 else 0
  {
  }

  /** The page list never holds more than two ellipses. */
  lemma AtMostTwoEllipses(currentPage: int, totalPages: int)
    ensures EllipsisCount(PaginationPages(currentPage, totalPages)) <= 2
  {
    var cp, tp := currentPage, totalPages;
    if tp > 1 {
      var e1, e2 := When(cp > 3, Ellipsis), When(cp < tp - 2, Ellipsis);
      var mid := PagesOf(When(cp > 2, cp - 1) + When(cp != 1 && cp != tp, cp) + When(cp < tp - 1, cp + 1));
      CodeAsPieces(cp, tp);
      var a := [Page(1)] + e1;
      var b := a + mid;
      var c := b + e2;
      assert PaginationPages(cp, tp) == c + [Page(tp)];
      EllipsisCountAppend(c, [Page(tp)]);
      EllipsisCountAppend(b, e2);
      EllipsisCountAppend(a, mid);
      EllipsisCountAppend([Page(1)], e1);
      PagesOfHasNoEllipsis(When(cp > 2, cp - 1) + When(cp != 1 && cp != tp, cp) + When(cp < tp - 1, cp + 1));
      WhenCount(cp > 3, Ellipsis);
      WhenCount(cp < tp - 2, Ellipsis);
    }
  }

  /** The examples of the doc comment, evaluated against the code: the middle
      one holds, while for the first and last page the code shows one
      neighbour only, not the two the comment lists. */
  lemma DocExamples()
    ensures PaginationPages(5, 10) == [Page(1), Ellipsis, Page(4), Page(5), Page(6), Ellipsis, Page(10)]
    ensures PaginationPages(1, 10) == [Page(1), Page(2), Ellipsis, Page(10)]
    ensures PaginationPages(1, 10) != [Page(1), Page(2), Page(3), Ellipsis, Page(10)]
    ensures PaginationPages(10, 10) == [Page(1), Ellipsis, Page(9), Page(10)]
    ensures PaginationPages(10, 10) != [Page(1), Ellipsis, Page(8), Page(9), Page(10)]
  {
  }

  // ---------------------------------------------------------------------------
  // Item range and page clamping
  // ---------------------------------------------------------------------------

  /** First and last item (1-indexed) shown on a page. */
  datatype ItemRange = ItemRange(startItem: int, endItem: int)

  function PaginationRange(currentPage: int, itemsPerPage: int, totalItems: int): (r: ItemRange)
    ensures r.startItem == (currentPage - 1) * itemsPerPage + 1
    ensures r.endItem <= currentPage * itemsPerPage && r.endItem <= totalItems
    ensures r.endItem == currentPage * itemsPerPage || r.endItem == totalItems
  {
    var startItem := (currentPage - 1) * itemsPerPage + 1;
    var endItem := if currentPage * itemsPerPage <= totalItems then currentPage * itemsPerPage else totalItems;
    ItemRange(startItem, endItem)
  }

  /** The page (1-indexed) that item `k` (1-indexed) falls on. */
  function PageOfItem(k: int, itemsPerPage: int): int
    requires itemsPerPage > 0
  {
    (k - 1) / itemsPerPage + 1
  }

  /** The range shows exactly the existing items that fall on the current
      page; it never passes the last item and never holds more than a page. */
  lemma PaginationRangeCoversPage(currentPage: int, itemsPerPage: int, totalItems: int)
    requires itemsPerPage > 0 && currentPage >= 1
    ensures var r := PaginationRange(currentPage, itemsPerPage, totalItems);
      && r.endItem <= totalItems
      && r.endItem - r.startItem + 1 <= itemsPerPage
      && r.startItem >= 1
      && (forall k :: 1 <= k <= totalItems ==>
            (r.startItem <= k <= r.endItem <==> PageOfItem(k, itemsPerPage) == currentPage))
  {
    var r := PaginationRange(currentPage, itemsPerPage, totalItems);
    var n := itemsPerPage;
    assert (currentPage - 1) * n >= 0 by {
      assert currentPage - 1 >= 0;
    }
    assert currentPage * n == (currentPage - 1) * n + n;
    forall k | 1 <= k <= totalItems
      ensures r.startItem <= k <= r.endItem <==> PageOfItem(k, n) == currentPage
    {
      var q, m := (k - 1) / n, (k - 1) % n;
      assert k - 1 == q * n + m && 0 <= m < n;
      if q < currentPage - 1 {
        assert q * n <= (currentPage - 2) * n by { MulMonotone(q, currentPage - 2, n); }
        assert (currentPage - 2) * n + n == (currentPage - 1) * n;
      } else if q > currentPage - 1 {
        assert currentPage * n <= q * n by { MulMonotone(currentPage, q, n); }
      }
    }
  }

  lemma MulMonotone(a: int, b: int, n: int)
    requires a <= b && n >= 0
    ensures a * n <= b * n
  {
    assert b * n - a * n == (b - a) * n;
  }

  lemma RangeExamples()
    ensures PaginationRange(1, 10, 25) == ItemRange(1, 10)
    ensures PaginationRange(3, 10, 25) == ItemRange(21, 25)
  {
  }

  /** A page number forced into [1, totalPages]; 1 when there are no pages. */
  function ClampPage(page: int, totalPages: int): (r: int)
    ensures totalPages == 0 ==> r == 1
    ensures totalPages >= 1 ==> 1 <= r <= totalPages
    ensures totalPages >= 1 && 1 <= page <= totalPages ==> r == page
    ensures totalPages >= 1 && page < 1 ==> r == 1
    ensures totalPages >= 1 && page > totalPages ==> r == totalPages
  {
    if totalPages == 0 then 1
    else
      var low := if page < 1 then 1 else page;
      if low < totalPages then low else totalPages
  }

  /** Clamping a clamped page changes nothing. */
  lemma ClampPageIdempotent(page: int, totalPages: int)
    ensures ClampPage(ClampPage(page, totalPages), totalPages) == ClampPage(page, totalPages)
  {
  }

  lemma ClampPageExamples()
    ensures ClampPage(5, 3) == 3
    ensures ClampPage(-1, 10) == 1
    ensures ClampPage(5, 10) == 5
  {
  }
}
